=== FILE: README.md ===
# Flood-loss core of hazpy, in Dafny

This project models the computational core of hazpy's flood module and proves properties of it.

It covers the per-facility loss pipeline of `UDF.flood_damage`. For one depth grid, each user-defined facility (UDF) row goes through these steps:

- its pixel is sampled on the grid;
- it gets a Specific Occupancy ID (SOID) and content and inventory cost bases;
- when the raster shows water, it gets building, content and inventory damage from depth-damage functions (DDFs), plus debris tonnage and restoration days.

The records of a grid are then counted and sorted by depth in structure.

Beside the pipeline, the project models:

- the average annualized loss (AAL) aggregation of `AAL.py`: period weights, filtering, grouping, loss ratio and sort;
- the CSV-column-to-field mapping of `udf_field_mapping.py` and the positional unpacking of its result;
- the flood-type choice of PELV worksheet and the `previous_and_next` helper.

Modules:

- `Wrappers`: `Option` and `Result`.
- `PyText`: Python's `int()`, `str()` of integers, slicing, negative indexing and string ordering.
- `Lookup`: scans that stop at the first match, and scans that keep the last match.
- `StableSort`: a stable sort by key, the behaviour of Python's `sorted`.
- `Fold`: a left fold with an error exit, used for the record loop.
- `Tables`: the lookup-table rows and the run errors.
- `Occupancy`: SOID derivation and the occupancy lists.
- `Raster`: the grid sample policy.
- `Costs`: content and inventory cost bases.
- `Curves`: the depth clamp, the curve column keys and interpolation.
- `Resolver`: DDF resolution.
- `Secondary`: debris and restoration.
- `Pipeline`: one record, a whole grid, and the sorted result.
- `Aal`: the AAL aggregation.
- `FieldMapping`: the column mapping.
- `Pelv`: the worksheet choice and `previous_and_next`.

The model follows the code, including these behaviours that are easy to misread:

- Content loss is the content damage ratio times the content cost basis (`UDF.py` line 845, with the basis from lines 492-500), not a fraction of the building cost.
- The last period's weight is half the difference of the last two reciprocals (`AAL.py` lines 52-54). With periods 10, 25 and 50 it is `(1/25 - 1/50)/2 = 0.01`.
- A debris or restoration key missing from its table does not yield an empty result. The loop variable still holds a damage-function row, reading its columns raises `KeyError`, and the whole run returns failure.
- A blank required field in the first row aborts the run instead of skipping the row. `setValue` is defined only after the check, and the row-1 handler calls it.
- When the economic table has no row for an inventory-listed occupancy, the inventory cost keeps the previous record's value. If there is no previous record, the run aborts.
- `AAL.get_aal` catches the exceptions of its period loop (`AAL.py` lines 41-83). A period whose weight divides by zero is skipped after printing the exception. This holds even for an empty table, because `apply` still calls the row function once to infer the result's shape (line 56).

## Model

| member | source | states |
|---|---|---|
| Occupancy.SoidPrefix | hazpy/flood/modules/UDF.py:455 | The prefix is the first character plus the characters from position 3 on; `REL1` gives `RE1`; short classes follow Python's slice rules |
| Occupancy.SoidSuffix | hazpy/flood/modules/UDF.py:459 | `B` exactly when the foundation type is 4, otherwise `N` |
| Occupancy.SoidMiddle | hazpy/flood/modules/UDF.py:462-479 | RES3 gives 1/3/5 by story thresholds 2 and 4; RES1 caps stories at 3 and prints a whole count, `S` otherwise; RES2 always gives 1; other classes give L/M/H with L iff stories <= 3 and H iff stories > 6 |
| Occupancy.Soid | hazpy/flood/modules/UDF.py:455-481 | The SOID is the prefix, then the story character, then the basement flag, in that order |
| Occupancy.Res1StoriesCapped | hazpy/flood/modules/UDF.py:468-472 | A RES1 facility with more than three stories gets the SOID of a three-story one, `R13` plus the basement flag |
| Occupancy.Rel1Prefix | hazpy/flood/modules/UDF.py:455 | Every REL1 SOID starts with `RE1`, whatever the stories and foundation |
| Occupancy.SoidExamples | hazpy/flood/modules/UDF.py:455-481 | Worked SOIDs: RES1 one story on a basement is `R11B`, split-level RES1 is `R1SN`, COM10 with seven stories on a basement is `C10HB`, and others |
| Occupancy.ContentMultiplier | hazpy/flood/modules/UDF.py:492 | The multiplier is 0.5, 1.0 or 1.5 exactly for the classes of the three lists, and 0 for any class outside them |
| Costs.ContentCost | hazpy/flood/modules/UDF.py:492-500 | Without a content column, the basis is the truncated building cost times the multiplier. With one, it is the truncated user value, except that the sentinel -1 falls back to the default. The default lies between 0 and 1.5 times the cost |
| Costs.InventoryCost | hazpy/flood/modules/UDF.py:502-524 | An inventory-listed class without a user value takes sales per square foot × inventory percentage × area / 100 from the FIRST economic row of its class, and has no value when no row exists. Otherwise the basis is the user value above -1, else 0 |
| Costs.Res1ContentCostExample | hazpy/flood/modules/UDF.py:492-500 | A RES1 facility worth 100000 without a content column has a content basis of 50000 |
| Raster.Sample | hazpy/flood/modules/UDF.py:398-399 | The sample is 0 when an index fails the `abs(i) < abs(n)` test. Otherwise it is the cell at the wrapped indices, where a negative index counts from the far edge independently in each axis, or 0 when that cell is no-data. A non-zero sample is never the no-data value |
| Raster.SampleIsCellOrZero | hazpy/flood/modules/UDF.py:398-399 | Every sample is either 0 or the value of a cell inside the grid |
| Curves.Clamp | hazpy/flood/modules/UDF.py:580-581 | The lookup depth lies in [-4, 24]; depths inside are unchanged, and depths outside go to the nearer bound |
| Curves.ColumnKey | hazpy/flood/modules/UDF.py:598-605 | The column of integer depth v is `m` for negative v, else `p`, followed by the decimal digits of abs(v) |
| Curves.ColumnKeyInjective | hazpy/flood/modules/UDF.py:598-605 | Two integer depths share a column name iff they are equal |
| Curves.ColumnKeyExamples | hazpy/flood/modules/UDF.py:598-605 | Depths -4, -1, 0 and 24 read columns `m4`, `m1`, `p0` and `p24` |
| Curves.KeysAroundZero | hazpy/flood/modules/UDF.py:598-603 | A depth strictly between -1 and 0 reads the lower column `m1` and the upper column `p0` |
| Curves.Interpolate | hazpy/flood/modules/UDF.py:710-715 | The ratio lies between the two tabulated percentages over 100, in either order; at an integer depth it is the lower percentage over 100 |
| Curves.DamageRatio | hazpy/flood/modules/UDF.py:710-715 | The ratio exists iff the row has both the floor and the ceiling columns. It is then their interpolation. A missing column is a `KeyError`, modelled as `MissingColumn` |
| Curves.CompleteCurveNeverMisses | hazpy/flood/modules/UDF.py:580-605 | A row with every column from `m4` to `p24` always yields a ratio at a clamped depth |
| Curves.IntegerDepthIsExact | hazpy/flood/modules/UDF.py:710-715 | At an integer depth the ratio is exactly that column's percentage over 100 |
| Curves.RatioBetweenNeighbours | hazpy/flood/modules/UDF.py:710-715 | Any computed ratio lies between its two neighbouring tabulated values over 100 |
| Resolver.DefaultTableFor | hazpy/flood/modules/UDF.py:672-677 | Coastal A iff the run code is `CAE` and the class starts with `RES`; coastal V iff the code is `V` or `VE` and the class starts with `RES`; riverine otherwise |
| Resolver.FullMatch | hazpy/flood/modules/UDF.py:619-628 | Without a user id there is no match. Otherwise the result is the first full-library row whose id equals `str(int(id))`, or nothing when no row has it |
| Resolver.DefaultMatch | hazpy/flood/modules/UDF.py:680-691 | The first default row whose SOID equals the facility's, or nothing when none does |
| Resolver.DefaultId | hazpy/flood/modules/UDF.py:686-690 | A default-table hit records the table's DDF id, or `int` of the user's id when one was mapped |
| Resolver.Resolve | hazpy/flood/modules/UDF.py:612-703 | A user id found in the full library wins and is recorded as given. Otherwise the first default row for the SOID is used. Otherwise nothing matches (`NoMatch` iff both lookups miss) |
| Resolver.ResolveInventory | hazpy/flood/modules/UDF.py:858-945 | Inventory resolves as building and content do, except that without a full-library hit only inventory-listed classes consult the riverine default table; `NoDefault` exactly otherwise |
| Resolver.UserIdWins | hazpy/flood/modules/UDF.py:619-651 | A user id present in the full library resolves to a full-library row under the user's id, even when a default row exists |
| Resolver.MissWithoutUserOrDefault | hazpy/flood/modules/UDF.py:693-703 | With no user id and no default row for the SOID, resolution fails |
| Secondary.BucketFloor | hazpy/flood/modules/UDF.py:983-988 | The largest breakpoint at or below the depth, or the first breakpoint when the depth is below them all |
| Secondary.BucketCeil | hazpy/flood/modules/UDF.py:1029-1030 | The smallest breakpoint strictly above the depth, or the last breakpoint when the depth reaches them all |
| Secondary.FoundationCode | hazpy/flood/modules/UDF.py:975-976 | `SG` iff the foundation type is 4 or 7, otherwise `FT` |
| Secondary.BasementCode | hazpy/flood/modules/UDF.py:972-982 | `B` iff the class is RES1 on foundation type 4, otherwise `NB` |
| Secondary.DebrisSuffixIsBucket | hazpy/flood/modules/UDF.py:978-993 | The depth part of the debris key is the printed floor bucket: breakpoints -8/-4/0/4/6/8 for RES1 or COM6 on a basement, 0/1/4/8/12 otherwise; RES2 below 0 is the exception |
| Secondary.Tonnage | hazpy/flood/modules/UDF.py:1002-1009 | Finishes, structure and foundation tons are each area × that rate / 1000, the total is their sum, equal to area × (sum of rates) / 1000; with non-negative inputs every component is between 0 and the total |
| Secondary.Debris | hazpy/flood/modules/UDF.py:967-1011 | No debris unless the clamped depth is positive. Otherwise the LAST table row with the key is used, and a missing key aborts the run |
| Secondary.RestorationSuffixIsBucket | hazpy/flood/modules/UDF.py:1029-1030 | The depth part of the restoration key is the printed ceiling bucket over 0/1/4/8/12/24 |
| Secondary.Restoration | hazpy/flood/modules/UDF.py:1027-1042 | 0/0 days unless the clamped depth is positive. Otherwise the min and max days come from the FIRST row with the key, and a missing key aborts the run |
| Secondary.PositiveDepthRestorationSuffix | hazpy/flood/modules/UDF.py:1027-1031 | With a positive depth the restoration key ends in 1, 4, 8, 12 or 24 |
| Pipeline.FlExp | hazpy/flood/modules/UDF.py:537-570 | `flExp` is absent exactly for skipped records, 0 exactly for records the raster shows dry, and 1 exactly for records under water, including those whose SOID then finds no building curve |
| Pipeline.PointInPixel | hazpy/flood/modules/UDF.py:392-393 | A point inside pixel (r, c) of a north-up grid maps to row r and column c |
| Pipeline.InventoryCostOrStale | hazpy/flood/modules/UDF.py:502-524 | The computed inventory cost when there is one. On an economic-table miss, the previous record's value. On a miss with no previous value, `EconMiss` |
| Pipeline.ComponentDamage | hazpy/flood/modules/UDF.py:706-735 | Fails iff a resolved curve lacks a column. A resolved curve gives its id and interpolated ratio over the given basis. No match gives zero damage under the id `ddf_id` still holds from the component before. No default inventory curve gives zero damage with id 0 |
| Pipeline.ComponentDamageAsWritten | hazpy/flood/modules/UDF.py:831-842 | A content or inventory default-table miss aborts the run with an unknown output column; every other case is as corrected |
| Pipeline.DefaultMissFinding | hazpy/flood/modules/UDF.py:813-842 | For a SOID with no user id and no default row, the as-written component aborts while the corrected one records zero damage under the carried id and a zero loss |
| Pipeline.LossWithinBasis | hazpy/flood/modules/UDF.py:730-735 | With percentages in [0, 100] and a non-negative basis, the ratio is in [0, 1] and the loss is between 0 and the basis |
| Pipeline.Components | hazpy/flood/modules/UDF.py:706-960 | Each component is the damage of its own curve at the clamped depth: the building curve over the truncated cost, the content curve (user id, else content default table) over the content basis, the inventory curve over the inventory basis. A content miss keeps the building's id and makes the inventory default lookup search `XXXX`; an inventory miss keeps the content's id. It succeeds iff no resolved curve lacks a column |
| Pipeline.ContentMissHidesInventory | hazpy/flood/modules/UDF.py:831-916 | After a content default-table miss the SOID is `XXXX`, so without a full-library inventory id (and no `XXXX` row) no inventory curve resolves and the inventory damage ratio is 0, whatever row the facility's own SOID has |
| Pipeline.DebrisAndRestoration | hazpy/flood/modules/UDF.py:967-1044 | The pair is the debris result and the restoration result for the facility at the clamped depth. It succeeds iff both lookups do, and a debris miss is reported first. Debris is present iff the depth is positive; at a non-positive depth there is no debris and 0/0 days |
| Pipeline.ExposedOutcome | hazpy/flood/modules/UDF.py:568-1044 | The record is unmatched iff the building curve does not resolve. Otherwise its damages are the three components and its debris and days the secondary results at the given depth, and it succeeds iff those do. Every failure is a missing column or table row |
| Pipeline.ProcessRecord | hazpy/flood/modules/UDF.py:370-375 | An incomplete record aborts the run iff it is row 1; a later one is written with depth -99999 and leaves the inventory cost unchanged. A complete record is processed as `Pipeline.ProcessComplete` states |
| Pipeline.ProcessComplete | hazpy/flood/modules/UDF.py:377-1053 | A complete record has depth in structure = raster − first-floor height, its SOID, its content cost and the inventory cost (or stale value) of its class, which it leaves behind. It is dry iff the raster value is <= 0, and otherwise its outcome is the exposed outcome at the clamped depth. It fails iff the inventory cost is unavailable (only with no previous record) or the exposed outcome fails, never with an unknown output column |
| Pipeline.ExposedRecordLosses | hazpy/flood/modules/UDF.py:568-1044 | For every exposed record, building damage is the resolved building curve's ratio at the clamped depth over the truncated cost, so its loss is their product. Its content, inventory, debris and restoration values are those of their own curves and tables at that depth, and a content or inventory miss records the id of the component before it |
| Pipeline.Res1BasementScenario | hazpy/flood/modules/UDF.py:425-1044 | A one-story RES1 on a basement under 3 feet of water has 2 feet in the structure and a building loss of 20000 at 20% (cost 100000). It has a content loss of 15000 at 30% (basis 50000), no inventory loss, 52.5 tons of debris from row `RES1BSG0` and 30–60 restoration days |
| Pipeline.RecordsFollowInput | hazpy/flood/modules/UDF.py:367-1053 | A completed run has one record per input row, each for the facility of the same position |
| Pipeline.IncompleteFirstRowAborts | hazpy/flood/modules/UDF.py:372-375 | A blank required field in row 1 makes the whole run fail |
| Pipeline.IncompleteLaterRowIsSkipped | hazpy/flood/modules/UDF.py:372-375 | A blank required field in a later row gives the -99999 record and carries the inventory state through unchanged |
| Pipeline.SortByDepth | hazpy/flood/modules/UDF.py:1159-1160 | The sorted file is a permutation of the records, in non-increasing depth in structure, with equal depths in file order |
| Pipeline.Tally | hazpy/flood/modules/UDF.py:567-1048 | The flooded counter goes up exactly for exposed records, and the unmatched counter exactly for unmatched SOIDs |
| Pipeline.RunSteps | hazpy/flood/modules/UDF.py:367-1048 | The record loop yields the records of the left-to-right fold, or its first error, and its counters equal the number of exposed and unmatched records among them |
| Pipeline.SortedOutput | hazpy/flood/modules/UDF.py:1049-1160 | When row 1 wrote the header, the result is the depth-sorted records. When row 1 is unmatched, the file has no header, so the sort fails iff a second row exists, and otherwise yields no records |
| Pipeline.RunGrid | hazpy/flood/modules/UDF.py:367-1160 | A failing record fails the grid with its error. Otherwise the grid fails iff the sort of the headerless output fails, and its output is the sorted result read back from the file; the processed count is the row count, and the two counters count exposed and unmatched records |
| Aal.Weight | hazpy/flood/modules/AAL.py:47-54 | The first period weighs (1/own − 1/next)/2, an interior one (1/previous − 1/next)/2, and the last (1/previous − 1/own)/2. There is no weight iff a period it divides by is 0 |
| Aal.WeightsTelescope | hazpy/flood/modules/AAL.py:47-54 | Over reciprocal periods the weights sum to the first minus the last |
| Aal.WeightSum | hazpy/flood/modules/AAL.py:47-54 | With no zero period, the weights of all periods sum to 1/first − 1/last |
| Aal.WeightsPositive | hazpy/flood/modules/AAL.py:47-54 | For strictly increasing positive periods every weight exists and is positive |
| Aal.WeightExample | hazpy/flood/modules/AAL.py:47-54 | Periods 10, 25 and 50 weigh 0.03, 0.04 and 0.01 |
| Aal.KeptRows | hazpy/flood/modules/AAL.py:58 | A row is kept iff some loss column is positive, and no row is kept twice |
| Aal.PeriodRows | hazpy/flood/modules/AAL.py:40-83 | A period is dropped iff its weight divides by zero, whether or not its table is empty. Otherwise its kept rows are scaled by the weight |
| Aal.GroupSum | hazpy/flood/modules/AAL.py:107 | One row per grouping key present, no key twice, each row holding the sum of that key's rows |
| Aal.Divide | hazpy/flood/modules/AAL.py:114-116 | A non-zero divisor gives the quotient; 0/0 becomes 0 after `fillna`; a non-zero over zero is an infinity of the numerator's sign |
| Aal.Summarize | hazpy/flood/modules/AAL.py:113-116 | The total is the sum of the three AALs. The ratio is (building + content AAL) / (cost + content cost), 0 when both are 0. The percentage is the ratio × 100 |
| Aal.AnnualizedLoss | hazpy/flood/modules/AAL.py:18-167 | Fails with `MissingPeriod` iff there is one period or fewer tables than periods, and with `NoPeriods` iff there is no period or every period is dropped. Otherwise: one row per key of the surviving weighted rows, each the summary of that key's sum, sorted by facility id |
| Aal.ZeroPeriodDropsAll | hazpy/flood/modules/AAL.py:47-107 | With periods 0 and 10 both weights divide by zero, so both periods are dropped whatever their tables hold, and the run fails with `NoPeriods` as `pd.concat` of an empty list does |
| Aal.IncreasingPeriodsSucceed | hazpy/flood/modules/AAL.py:47-54 | With strictly increasing positive periods and a table for each, no period is dropped and the AAL exists |
| Aal.ThreePeriodExample | hazpy/flood/modules/AAL.py:18-119 | A facility losing 100, 200 and 300 at periods 10, 25 and 50 has a building AAL of 14 |
| FieldMapping.MatchedField | python_env/udf_field_mapping.py:55-60 | "" when no file column is a candidate; otherwise the last such column in file order, which belongs to both lists |
| FieldMapping.LaterColumnWins | python_env/udf_field_mapping.py:58-60 | When two candidate spellings are both columns, the later column is matched |
| FieldMapping.RequiredFlag | python_env/udf_field_mapping.py:61-63 | "Required" iff the required table maps the key to 1, else "" |
| FieldMapping.MapUdfFields | python_env/udf_field_mapping.py:52-65 | Exactly one tuple per lookup entry, in lookup order, with the display name, the matched column and the required flag. It fails iff some key has no display name |
| FieldMapping.SortedByRank | python_env/udf_field_mapping.py:70 | A permutation in non-decreasing rank, stable for equal ranks. It fails iff there are two or more tuples and some display name has no rank |
| FieldMapping.OrderFields | python_env/udf_field_mapping.py:67-74 | The output has the input's length, is a permutation of the matched columns, and holds at each position the column of the tuple at that position of the stable rank sort. It fails exactly when the rank sort fails |
| FieldMapping.Unpack | hazpy/flood/modules/UDF.py:116 | Unpacking succeeds iff there are exactly sixteen names, taken positionally |
| FieldMapping.MappingUnpacks | hazpy/flood/modules/UDF.py:116 | The mapped and ordered columns unpack iff the lookup has sixteen entries |
| Pelv.PelvSheet | hazpy/flood/modules/UDF.py:1262-1266 | `PELV A` iff the flood type is Riverine, CAE or Coastal A; `PELV V` for every other type |
| Pelv.SheetExamples | hazpy/flood/modules/UDF.py:1262-1266 | Coastal A reads the A sheet; Coastal V and a lower-case `riverine` read the V sheet |
| Pelv.PreviousAndNext | hazpy/flood/modules/UDF.py:1436-1440 | One triple per item; its middle is the item, its previous is the item before (None for the first), and its next is the item after (None for the last) |
| Pelv.TriplesChain | hazpy/flood/modules/UDF.py:1436-1440 | Neighbouring triples overlap: a triple's next is the following middle, and the following triple's previous is this middle |
| Pelv.EndsAreOpen | hazpy/flood/modules/UDF.py:1436-1440 | Only the first triple lacks a previous item, and only the last lacks a next one |

## Left out

- GDAL and projection are not modelled: opening the raster, reading the geotransform and band, and UTM reprojection. The model takes the origin, the pixel sizes and the band as values. `Pipeline.GeoFrame` assumes non-zero pixel sizes, which every georeferenced raster has.
- CSV and JSON input and output are not modelled: reading rows, writing rows and headers, and the sorted-file rewrite. Rows are values, and the sort is a pure function.
- The header is written only when row 1 reaches the end of the loop. The model produces records, not file text; the consequence of a missing header for the sort is modelled by `Pipeline.SortedOutput`.
- Pipeline.RunGrid: when row 1 is unmatched, the model takes it that none of row 1's written values is the text `Depth_in_Struc`, so that reading the file back finds no depth column. If one were, the source would sort using that column of the later rows.
- Pipeline.ProcessRecord: a content or inventory default-table miss is recorded as zero damage under the id `ddf_id` still holds, the corrected reading of the finding below. The source instead aborts the whole run, as `Pipeline.ComponentDamageAsWritten` models. The same holds for `Pipeline.ProcessComplete`, `Pipeline.ExposedOutcome`, `Pipeline.Components` and `Pipeline.RunGrid`, which never fail with `ExtraColumn`.
- Numeric cells are modelled as already-parsed reals. The model does not cover text that `float()` rejects, NaN, or the float rounding and representation of the arithmetic; losses and weights are exact reals.
- Facilities are processed one grid at a time. Across several grids, the source grows the output field list and carries `icost` and other loop variables from one grid to the next; the model starts each grid fresh.
- The coastal default tables are chosen by a run-wide flood-type code, as in the source (the `flC` column name itself is the code). A per-row coastal zone is not read by the source, and the model does not read one either.
- Not modelled: the PELV block inside `flood_damage`, all of `PELV.py`, the database and process helpers, and the legacy AAL functions of `UDF.py`. They are pandas, Excel, SQL, HTTP and subprocess work.
- Aal.AnnualizedLoss: rows with the same facility id keep first-appearance group order. In the source, `groupby` sorts groups by key and `sort_values` uses an unstable sort, so the order of such rows is unspecified there. The contract states only the sort by facility id.
- Aal.AnnualizedLoss: grouping keys are compared as values. The source first converts them to text (`astype(str)`), which gives the same groups for finite floats. A blank cost becomes '' and fails the later `astype(float)`, which is not modelled.
- Aal.PeriodRows: an empty period table with a non-zero weight is taken to contribute no rows. What pandas builds for the new column of an empty frame depends on the pandas version.
- Not modelled: the `export_df` and `export_sum` file writes, and the column selection and ordering of the output.
- FieldMapping.MapUdfFields: the required-flag test `== 1` is modelled on integer values. A JSON `true` would also compare equal to 1 in Python.
- FieldMapping.Unpack: only the first, second and last of the sixteen names are stated in the contract. The other thirteen are positional in the same way.
- Not modelled: QC prints, logging, timing and the GUI. They do not affect results.

## Findings

| source | as written | input that shows it | evidently intended | confidence | as-written member | corrected member |
|---|---|---|---|---|---|---|
| hazpy/flood/modules/UDF.py:831-842 | When the content (or inventory, lines 933-947) default table has no row for the SOID, the code rebinds the output-column name `CDDF_ID` to -9999 and then sets `row[-9999]`. `csv.DictWriter` refuses the unknown key, and the whole run fails | A complete, flooded facility with no user content id whose SOID is in the building default table but not in the content default table | Record no content (or inventory) damage for that facility and carry on, as the comments there say ("No need to change the CDDF_ID", damage 0). Everything else on that path stays as written: the output column gets the id `ddf_id` still holds, and after a content miss the inventory default lookup searches the SOID `XXXX` | not executed | Pipeline.ComponentDamageAsWritten | Pipeline.ComponentDamage |

=== FILE: aal.dfy ===
/**
 * Average annualized loss across return periods (hazpy/flood/modules/AAL.py).
 * Each period's losses are weighted by a trapezoid share of its exceedance
 * frequency, rows without any loss are dropped, and the weighted rows of all
 * periods are summed per facility, totalled, turned into a loss ratio and
 * sorted by facility id.
 */
module Aal {
  import opened Wrappers
  import opened PyText
  import opened Lookup
  import StableSort

  /** Building, content and inventory amounts of one row. */
  datatype Amounts = Amounts(bldg: real, content: real, inventory: real) {
    function Plus(o: Amounts): Amounts {
      Amounts(bldg + o.bldg, content + o.content, inventory + o.inventory)
    }

    function Scale(w: real): Amounts {
      Amounts(w * bldg, w * content, w * inventory)
    }

    /** Some loss column is positive: the row survives the period filter. */
    predicate AnyPositive() {
      bldg > 0.0 || content > 0.0 || inventory > 0.0
    }
  }

  const NoLoss: Amounts := Amounts(0.0, 0.0, 0.0)

  /** The columns the final table groups by. */
  datatype GroupKey = GroupKey(fltyId: string, occ: string, cost: real, contentCost: real, lat: real, lon: real)

  /**
   * One row of a period's loss table: the grouping columns, the three loss
   * columns, and every other column as text (they take part in duplicate
   * detection only).
   */
  datatype LossRow = LossRow(key: GroupKey, losses: Amounts, other: seq<string>)

  /** A row after weighting: grouping columns and the three `_aal` columns. */
  datatype AalRow = AalRow(key: GroupKey, aal: Amounts)

  /** Why the whole AAL computation fails. */
  datatype AalError =
    | MissingPeriod  // a single period, or fewer tables than periods: an index is out of range
    | NoPeriods      // no period, or every period dropped: there is nothing to concatenate

  // ---------------------------------------------------------------- weights

  /** The neighbour below period `i` in the weight: itself for the first period. */
  function Below(i: nat): nat {
    if i == 0 then 0 else i - 1
  }

  /** The neighbour above period `i` in the weight: itself for the last period. */
  function Above(i: nat, n: nat): nat {
    if i + 1 == n then i else i + 1
  }

  /**
   * The weight of period `i`: half the frequency difference of its neighbours,
   * with the first period using itself and the next, and the last period its
   * predecessor and itself.  A zero period divides by zero, which the source
   * swallows, so there is no weight.
   */
  function Weight(rps: seq<int>, i: nat): (w: Option<real>)
    requires 2 <= |rps| && i < |rps|
    ensures w.None? <==> rps[Below(i)] == 0 || rps[Above(i, |rps|)] == 0
    ensures i == 0 && w.Some? ==> w.value == (1.0 / rps[0] as real - 1.0 / rps[1] as real) / 2.0
    ensures 0 < i < |rps| - 1 && w.Some? ==>
              w.value == (1.0 / rps[i - 1] as real - 1.0 / rps[i + 1] as real) / 2.0
    ensures i == |rps| - 1 && w.Some? ==> w.value == (1.0 / rps[i - 1] as real - 1.0 / rps[i] as real) / 2.0
  {
    var lo := rps[Below(i)];
    var hi := rps[Above(i, |rps|)];
    if lo == 0 || hi == 0 then None
    else Some((1.0 / lo as real - 1.0 / hi as real) / 2.0)
  }

  /** The weight written over the reciprocals `x[j] = 1 / rps[j]`. */
  function RecipWeight(x: seq<real>, i: nat): real
    requires 2 <= |x| && i < |x|
  {
    (x[Below(i)] - x[Above(i, |x|)]) / 2.0
  }

  function SumWeights(x: seq<real>, k: nat): real
    requires 2 <= |x| && k <= |x|
  {
    if k == 0 then 0.0 else SumWeights(x, k - 1) + RecipWeight(x, k - 1)
  }

  /** Up to an interior point, the weights add up to the first frequency minus the mean of the two at the cut. */
  lemma {:induction false} PartialWeights(x: seq<real>, k: nat)
    requires 2 <= |x| && 1 <= k < |x|
    ensures SumWeights(x, k) == x[0] - (x[k - 1] + x[k]) / 2.0
  {
    if k > 1 {
      PartialWeights(x, k - 1);
    }
  }

  /** The weights over the reciprocals telescope to the first minus the last. */
  lemma WeightsTelescope(x: seq<real>)
    requires 2 <= |x|
    ensures SumWeights(x, |x|) == x[0] - x[|x| - 1]
  {
    PartialWeights(x, |x| - 1);
  }

  function Recips(rps: seq<int>): (x: seq<real>)
    requires forall j :: 0 <= j < |rps| ==> rps[j] != 0
    ensures |x| == |rps|
    ensures forall j :: 0 <= j < |rps| ==> x[j] == 1.0 / rps[j] as real
  {
    seq(|rps|, j requires 0 <= j < |rps| => 1.0 / rps[j] as real)
  }

  /** The sum of the first `k` period weights, when no period is zero. */
  function PeriodWeightSum(rps: seq<int>, k: nat): real
    requires 2 <= |rps| && k <= |rps|
    requires forall j :: 0 <= j < |rps| ==> rps[j] != 0
  {
    if k == 0 then 0.0 else PeriodWeightSum(rps, k - 1) + Weight(rps, k - 1).value
  }

  /**
   * With no zero period, the weights of all periods sum to `1/first - 1/last`:
   * the frequency band the trapezoid rule covers.
   */
  lemma {:induction false} WeightSum(rps: seq<int>)
    requires 2 <= |rps|
    requires forall j :: 0 <= j < |rps| ==> rps[j] != 0
    ensures PeriodWeightSum(rps, |rps|) == 1.0 / rps[0] as real - 1.0 / rps[|rps| - 1] as real
  {
    var x := Recips(rps);
    SameSum(rps, x, |rps|);
    WeightsTelescope(x);
  }

  lemma {:induction false} SameSum(rps: seq<int>, x: seq<real>, k: nat)
    requires 2 <= |rps| && k <= |rps|
    requires forall j :: 0 <= j < |rps| ==> rps[j] != 0
    requires x == Recips(rps)
    ensures PeriodWeightSum(rps, k) == SumWeights(x, k)
  {
    if k > 0 {
      SameSum(rps, x, k - 1);
    }
  }

  lemma RecipDecreasing(a: int, b: int)
    requires 0 < a < b
    ensures 1.0 / a as real > 1.0 / b as real
  {
    assert 1.0 / a as real - 1.0 / b as real == (b - a) as real / (a as real * b as real);
  }

  /** For strictly increasing positive periods every weight exists and is positive. */
  lemma WeightsPositive(rps: seq<int>, i: nat)
    requires 2 <= |rps| && i < |rps|
    requires forall j :: 0 <= j < |rps| ==> rps[j] > 0
    requires forall j :: 0 <= j < |rps| - 1 ==> rps[j] < rps[j + 1]
    ensures Weight(rps, i).Some? && Weight(rps, i).value > 0.0
  {
    var lo := Below(i);
    var hi := Above(i, |rps|);
    assert lo < hi;
    IncreasingBetween(rps, lo, hi);
    RecipDecreasing(rps[lo], rps[hi]);
  }

  lemma {:induction false} IncreasingBetween(rps: seq<int>, lo: nat, hi: nat)
    requires lo < hi < |rps|
    requires forall j :: 0 <= j < |rps| - 1 ==> rps[j] < rps[j + 1]
    ensures rps[lo] < rps[hi]
    decreases hi - lo
  {
    if lo + 1 < hi {
      IncreasingBetween(rps, lo + 1, hi);
    }
  }

  /** Periods 10, 25 and 50 get weights 0.03, 0.04 and 0.01. */
  lemma WeightExample()
    ensures Weight([10, 25, 50], 0) == Some(0.03)
    ensures Weight([10, 25, 50], 1) == Some(0.04)
    ensures Weight([10, 25, 50], 2) == Some(0.01)
  {
  }

  // ---------------------------------------------------------------- one period

  /** `s` with later repeats removed, first occurrences in order (`drop_duplicates`). */
  function Dedup<T(==,!new)>(s: seq<T>): (r: seq<T>)
    ensures forall x :: x in r <==> x in s
    ensures forall i, j :: 0 <= i < j < |r| ==> r[i] != r[j]
  {
    if |s| == 0 then []
    else
      var d := Dedup(s[..|s| - 1]);
      var x := s[|s| - 1];
      assert s == s[..|s| - 1] + [x];
      if x in d then d else d + [x]
  }

  function Filter<T(!new)>(s: seq<T>, p: T -> bool): (r: seq<T>)
    ensures forall x :: x in r <==> x in s && p(x)
    ensures |r| <= |s|
  {
    if |s| == 0 then []
    else
      assert s == [s[0]] + s[1..];
      (if p(s[0]) then [s[0]] else []) + Filter(s[1..], p)
  }

  /**
   * The rows a period keeps: those with positive building loss, then those
   * with positive content loss, then those with positive inventory loss,
   * without repeats.
   */
  function KeptRows(rows: seq<LossRow>): (r: seq<LossRow>)
    ensures forall x :: x in r <==> x in rows && x.losses.AnyPositive()
    ensures forall i, j :: 0 <= i < j < |r| ==> r[i] != r[j]
  {
    Dedup(Filter(rows, (x: LossRow) => x.losses.bldg > 0.0)
          + Filter(rows, (x: LossRow) => x.losses.content > 0.0)
          + Filter(rows, (x: LossRow) => x.losses.inventory > 0.0))
  }

  function Weighted(rows: seq<LossRow>, w: real): (r: seq<AalRow>)
    ensures |r| == |rows|
    ensures forall i :: 0 <= i < |rows| ==> r[i] == AalRow(rows[i].key, rows[i].losses.Scale(w))
  {
    seq(|rows|, i requires 0 <= i < |rows| => AalRow(rows[i].key, rows[i].losses.Scale(w)))
  }

  /**
   * The weighted rows one period contributes, or `None` when the period is
   * dropped because its weight divides by zero.  On an empty table the row
   * function is still called once, to infer the result's shape, so the
   * division fails there too.
   */
  function PeriodRows(rows: seq<LossRow>, w: Option<real>): (r: Option<seq<AalRow>>)
    ensures r.None? <==> w.None?
    ensures r.Some? ==> r.value == Weighted(KeptRows(rows), w.value)
  {
    if w.None? then None
    else Some(Weighted(KeptRows(rows), w.value))
  }

  // ---------------------------------------------------------------- grouping

  /** The summed amounts of the rows with key `k`. */
  function SumFor(rows: seq<AalRow>, k: GroupKey): Amounts {
    if |rows| == 0 then NoLoss
    else
      var last := rows[|rows| - 1];
      SumFor(rows[..|rows| - 1], k).Plus(if last.key == k then last.aal else NoLoss)
  }

  /** The grouping keys that occur in `rows`. */
  function KeySet(rows: seq<AalRow>): set<GroupKey> {
    set i | 0 <= i < |rows| :: rows[i].key
  }

  ghost predicate UniqueKeys(rows: seq<AalRow>) {
    forall i, j :: 0 <= i < j < |rows| ==> rows[i].key != rows[j].key
  }

  /** Add one row into the groups: to its group if one exists, else as a new group at the end. */
  function AddTo(groups: seq<AalRow>, row: AalRow): (r: seq<AalRow>)
    ensures |r| == |groups| || |r| == |groups| + 1
  {
    match FindFirst(groups, (g: AalRow) => g.key == row.key)
    case Some(j) => groups[j := AalRow(row.key, groups[j].aal.Plus(row.aal))]
    case None => groups + [row]
  }

  /** `groupby(...).sum()`: one row per key present, holding the sum of that key's rows. */
  function GroupSum(rows: seq<AalRow>): (r: seq<AalRow>)
    ensures UniqueKeys(r)
    ensures KeySet(r) == KeySet(rows)
    ensures forall j :: 0 <= j < |r| ==> r[j].aal == SumFor(rows, r[j].key)
    decreases |rows|
  {
    if |rows| == 0 then []
    else
      var init := rows[..|rows| - 1];
      var groups := GroupSum(init);
      var row := rows[|rows| - 1];
      assert rows == init + [row];
      AddToSpec(init, groups, row);
      AddTo(groups, row)
  }

  lemma KeySetSnoc(rows: seq<AalRow>, row: AalRow)
    ensures KeySet(rows + [row]) == KeySet(rows) + {row.key}
  {
    var s := rows + [row];
    forall k | k in KeySet(s)
      ensures k in KeySet(rows) + {row.key}
    {
      var i :| 0 <= i < |s| && s[i].key == k;
      if i < |rows| {
        assert rows[i].key == k;
      }
    }
    forall k | k in KeySet(rows) + {row.key}
      ensures k in KeySet(s)
    {
      if k == row.key {
        assert s[|rows|].key == k;
      } else {
        var i :| 0 <= i < |rows| && rows[i].key == k;
        assert s[i].key == k;
      }
    }
  }

  lemma AddToSpec(init: seq<AalRow>, groups: seq<AalRow>, row: AalRow)
    requires UniqueKeys(groups)
    requires KeySet(groups) == KeySet(init)
    requires forall j :: 0 <= j < |groups| ==> groups[j].aal == SumFor(init, groups[j].key)
    ensures UniqueKeys(AddTo(groups, row))
    ensures KeySet(AddTo(groups, row)) == KeySet(init + [row])
    ensures forall j :: 0 <= j < |AddTo(groups, row)| ==>
              AddTo(groups, row)[j].aal == SumFor(init + [row], AddTo(groups, row)[j].key)
  {
    var rows := init + [row];
    assert rows[..|rows| - 1] == init;
    KeySetSnoc(init, row);
    var r := AddTo(groups, row);
    match FindFirst(groups, (g: AalRow) => g.key == row.key)
    case Some(m) =>
      assert r == groups[m := AalRow(row.key, groups[m].aal.Plus(row.aal))];
      assert row.key in KeySet(groups);
      forall k | k in KeySet(r)
        ensures k in KeySet(groups)
      {
        var i :| 0 <= i < |r| && r[i].key == k;
        assert groups[i].key == k;
      }
      forall k | k in KeySet(groups)
        ensures k in KeySet(r)
      {
        var i :| 0 <= i < |groups| && groups[i].key == k;
        assert r[i].key == k;
      }
    case None =>
      assert r == groups + [row];
      KeySetSnoc(groups, row);
      forall i | 0 <= i < |groups|
        ensures groups[i].key != row.key
      {
      }
      assert row.key !in KeySet(init);
      SumForAbsent(init, row.key);
  }

  /** A key that never occurs sums to nothing. */
  lemma {:induction false} SumForAbsent(rows: seq<AalRow>, k: GroupKey)
    requires k !in KeySet(rows)
    ensures SumFor(rows, k) == NoLoss
  {
    if |rows| > 0 {
      var init := rows[..|rows| - 1];
      assert KeySet(init) <= KeySet(rows) by {
        forall x | x in KeySet(init)
          ensures x in KeySet(rows)
        {
          var i :| 0 <= i < |init| && init[i].key == x;
          assert rows[i].key == x;
        }
      }
      assert rows[|rows| - 1].key in KeySet(rows);
      SumForAbsent(init, k);
    }
  }

  // ---------------------------------------------------------------- summary

  /** A float quotient after `fillna(0)`: finite, or an infinity from a non-zero over zero. */
  datatype Ratio = Finite(v: real) | PosInf | NegInf

  /** `num / den` in floating point, with NaN (0 / 0) replaced by 0. */
  function Divide(num: real, den: real): (r: Ratio)
    ensures den != 0.0 ==> r == Finite(num / den)
    ensures den == 0.0 ==> (r == Finite(0.0) <==> num == 0.0)
    ensures den == 0.0 ==> (r == PosInf <==> num > 0.0) && (r == NegInf <==> num < 0.0)
  {
    if den != 0.0 then Finite(num / den)
    else if num == 0.0 then Finite(0.0)
    else if num > 0.0 then PosInf
    else NegInf
  }

  /** The percentage form of a ratio; infinities stay infinite. */
  function Percent(r: Ratio): (p: Ratio)
    ensures r.Finite? <==> p.Finite?
    ensures r.Finite? ==> p.v == r.v * 100.0
    ensures r.PosInf? <==> p.PosInf?
  {
    match r
    case Finite(v) => Finite(v * 100.0)
    case PosInf => PosInf
    case NegInf => NegInf
  }

  /** One row of the summed table. */
  datatype SumRow = SumRow(key: GroupKey, aal: Amounts, total: real, ratio: Ratio, pct: Ratio)

  /** Totals and loss ratio of one group: (building + content) over (cost + content cost). */
  function Summarize(g: AalRow): (s: SumRow)
    ensures s.key == g.key && s.aal == g.aal
    ensures s.total == g.aal.bldg + g.aal.content + g.aal.inventory
    ensures g.key.cost + g.key.contentCost != 0.0 ==>
              s.ratio == Finite((g.aal.bldg + g.aal.content) / (g.key.cost + g.key.contentCost))
    ensures g.key.cost + g.key.contentCost == 0.0 && g.aal.bldg + g.aal.content == 0.0 ==> s.ratio == Finite(0.0)
    ensures s.pct == Percent(s.ratio)
  {
    var ratio := Divide(g.aal.bldg + g.aal.content, g.key.cost + g.key.contentCost);
    SumRow(g.key, g.aal, g.aal.inventory + g.aal.bldg + g.aal.content, ratio, Percent(ratio))
  }

  function FltyIdOf(s: SumRow): string {
    s.key.fltyId
  }

  lemma StrLeIsTotal()
    ensures StableSort.TotalOrder(StrLe)
  {
    forall a
      ensures StrLe(a, a)
    {
      StrLeReflexive(a);
    }
    forall a, b | StrLe(a, b) && StrLe(b, a)
      ensures a == b
    {
      StrLeAntisymmetric(a, b);
    }
    forall a, b, c | StrLe(a, b) && StrLe(b, c)
      ensures StrLe(a, c)
    {
      StrLeTransitive(a, b, c);
    }
    forall a, b
      ensures StrLe(a, b) || StrLe(b, a)
    {
      StrLeTotal(a, b);
    }
  }

  /** All rows of a sequence of tables, table after table (`pd.concat`). */
  function Flatten(tables: seq<seq<AalRow>>): (r: seq<AalRow>)
    ensures forall x :: x in r <==> exists t :: 0 <= t < |tables| && x in tables[t]
  {
    if |tables| == 0 then []
    else
      var init := tables[..|tables| - 1];
      var last := tables[|tables| - 1];
      var r := Flatten(init) + last;
      assert forall t :: 0 <= t < |init| ==> init[t] == tables[t];
      r
  }

  /** The contributions of periods `0 .. n-1` that were not dropped, in period order. */
  function Contributions(rps: seq<int>, tables: seq<seq<LossRow>>, n: nat): (r: seq<seq<AalRow>>)
    requires 2 <= |rps| <= |tables| && n <= |rps|
    ensures |r| <= n
    ensures |r| == 0 <==> forall i :: 0 <= i < n ==> PeriodRows(tables[i], Weight(rps, i)).None?
  {
    if n == 0 then []
    else
      var init := Contributions(rps, tables, n - 1);
      match PeriodRows(tables[n - 1], Weight(rps, n - 1))
      case None => init
      case Some(rows) => init + [rows]
  }

  /** The grouping keys of a summed table. */
  function SummaryKeys(rows: seq<SumRow>): set<GroupKey> {
    set j | 0 <= j < |rows| :: rows[j].key
  }

  /**
   * The summed AAL table.  At least two periods and one table per period are
   * needed, and at least one period must survive; the result has one row per
   * grouping key present in the surviving periods' rows, holding that key's
   * summed weighted losses, and is ordered by facility id.
   */
  function AnnualizedLoss(rps: seq<int>, tables: seq<seq<LossRow>>): (r: Result<seq<SumRow>, AalError>)
    ensures r == Err(MissingPeriod) <==> |rps| == 1 || (2 <= |rps| && |tables| < |rps|)
    ensures r == Err(NoPeriods) <==>
              |rps| == 0 || (2 <= |rps| <= |tables| && forall i :: 0 <= i < |rps| ==> PeriodRows(tables[i], Weight(rps, i)).None?)
    ensures r.Ok? ==> StableSort.Sorted(r.value, FltyIdOf, StrLe)
    ensures r.Ok? ==>
              var all := Flatten(Contributions(rps, tables, |rps|));
              && (forall i, j :: 0 <= i < j < |r.value| ==> r.value[i].key != r.value[j].key)
              && SummaryKeys(r.value) == KeySet(all)
              && (forall j :: 0 <= j < |r.value| ==> r.value[j] == Summarize(AalRow(r.value[j].key, SumFor(all, r.value[j].key))))
  {
    if |rps| == 0 then Err(NoPeriods)
    else if |rps| == 1 || |tables| < |rps| then Err(MissingPeriod)
    else
      var kept := Contributions(rps, tables, |rps|);
      if |kept| == 0 then Err(NoPeriods)
      else
        var all := Flatten(kept);
        var groups := GroupSum(all);
        var summary := seq(|groups|, j requires 0 <= j < |groups| => Summarize(groups[j]));
        StrLeIsTotal();
        var sorted := StableSort.SortBy(summary, FltyIdOf, StrLe);
        SortedSummary(all, groups, summary, sorted);
        Ok(sorted)
  }

  /** With positive, strictly increasing periods and a table for each, no period is dropped and the result exists. */
  lemma IncreasingPeriodsSucceed(rps: seq<int>, tables: seq<seq<LossRow>>)
    requires 2 <= |rps| <= |tables|
    requires forall j :: 0 <= j < |rps| ==> rps[j] > 0
    requires forall j :: 0 <= j < |rps| - 1 ==> rps[j] < rps[j + 1]
    ensures forall i :: 0 <= i < |rps| ==> PeriodRows(tables[i], Weight(rps, i)).Some?
    ensures AnnualizedLoss(rps, tables).Ok?
  {
    forall i | 0 <= i < |rps|
      ensures PeriodRows(tables[i], Weight(rps, i)).Some?
    {
      WeightsPositive(rps, i);
    }
  }

  /**
   * A zero period makes both weights of a two-period run divide by zero, so
   * both periods are dropped, whatever their tables hold, and there is nothing
   * to concatenate.
   */
  lemma ZeroPeriodDropsAll(tables: seq<seq<LossRow>>)
    requires 2 <= |tables|
    ensures Weight([0, 10], 0).None? && Weight([0, 10], 1).None?
    ensures AnnualizedLoss([0, 10], tables) == Err(NoPeriods)
  {
  }

  lemma SortedSummary(all: seq<AalRow>, groups: seq<AalRow>, summary: seq<SumRow>, sorted: seq<SumRow>)
    requires UniqueKeys(groups)
    requires KeySet(groups) == KeySet(all)
    requires forall j :: 0 <= j < |groups| ==> groups[j].aal == SumFor(all, groups[j].key)
    requires |summary| == |groups| && forall j :: 0 <= j < |groups| ==> summary[j] == Summarize(groups[j])
    requires multiset(sorted) == multiset(summary)
    ensures forall i, j :: 0 <= i < j < |sorted| ==> sorted[i].key != sorted[j].key
    ensures SummaryKeys(sorted) == KeySet(all)
    ensures forall j :: 0 <= j < |sorted| ==> sorted[j] == Summarize(AalRow(sorted[j].key, SumFor(all, sorted[j].key)))
  {
    forall x
      ensures x in sorted <==> x in summary
    {
      assert x in sorted <==> x in multiset(sorted);
      assert x in summary <==> x in multiset(summary);
    }
    forall j | 0 <= j < |sorted|
      ensures sorted[j] == Summarize(AalRow(sorted[j].key, SumFor(all, sorted[j].key)))
    {
      assert sorted[j] in summary;
      var m :| 0 <= m < |summary| && summary[m] == sorted[j];
      assert groups[m] == AalRow(groups[m].key, SumFor(all, groups[m].key));
    }
    DistinctSummaries(groups, summary);
    DistinctAfterPermutation(sorted, summary);
    forall k | k in SummaryKeys(sorted)
      ensures k in KeySet(groups)
    {
      var j :| 0 <= j < |sorted| && sorted[j].key == k;
      assert sorted[j] in summary;
      var m :| 0 <= m < |summary| && summary[m] == sorted[j];
      assert groups[m].key == k;
    }
    forall k | k in KeySet(groups)
      ensures k in SummaryKeys(sorted)
    {
      var m :| 0 <= m < |groups| && groups[m].key == k;
      assert summary[m] in sorted;
      var j :| 0 <= j < |sorted| && sorted[j] == summary[m];
      assert sorted[j].key == k;
    }
  }

  lemma DistinctSummaries(groups: seq<AalRow>, summary: seq<SumRow>)
    requires UniqueKeys(groups)
    requires |summary| == |groups| && forall j :: 0 <= j < |groups| ==> summary[j] == Summarize(groups[j])
    ensures forall i, j :: 0 <= i < j < |summary| ==> summary[i] != summary[j]
  {
  }

  /** A sequence without repeats has none after permutation either. */
  lemma DistinctAfterPermutation<T>(a: seq<T>, b: seq<T>)
    requires multiset(a) == multiset(b)
    requires forall p, q :: 0 <= p < q < |b| ==> b[p] != b[q]
    ensures forall i, j :: 0 <= i < j < |a| ==> a[i] != a[j]
  {
    forall i, j | 0 <= i < j < |a|
      ensures a[i] != a[j]
    {
      var x := a[i];
      assert a == a[..i] + [x] + a[i + 1..j] + [a[j]] + a[j + 1..];
      assert multiset(a) == multiset(a[..i]) + multiset{x} + multiset(a[i + 1..j]) + multiset{a[j]} + multiset(a[j + 1..]);
      MultiplicityAtMostOne(b, x);
    }
  }

  lemma {:induction false} MultiplicityAtMostOne<T>(b: seq<T>, x: T)
    requires forall p, q :: 0 <= p < q < |b| ==> b[p] != b[q]
    ensures multiset(b)[x] <= 1
    decreases |b|
  {
    if |b| > 0 {
      var init := b[..|b| - 1];
      assert b == init + [b[|b| - 1]];
      MultiplicityAtMostOne(init, x);
      if b[|b| - 1] == x {
        assert x !in init;
        assert multiset(init)[x] == 0;
      }
    }
  }

  // ---------------------------------------------------------------- example

  const ExampleKey := GroupKey("F1", "RES1", 100000.0, 50000.0, 0.0, 0.0)

  function ExampleTable(bldg: real): seq<LossRow> {
    [LossRow(ExampleKey, Amounts(bldg, 0.0, 0.0), [])]
  }

  lemma ExampleKept(bldg: real, w: real)
    requires bldg > 0.0
    ensures PeriodRows(ExampleTable(bldg), Some(w)) == Some([AalRow(ExampleKey, Amounts(w * bldg, 0.0, 0.0))])
  {
    var t := ExampleTable(bldg);
    assert Filter(t, (x: LossRow) => x.losses.content > 0.0) == [];
    assert Filter(t, (x: LossRow) => x.losses.inventory > 0.0) == [];
    assert Filter(t, (x: LossRow) => x.losses.bldg > 0.0) == t;
    assert Dedup(t) == t by {
      assert t[..0] == [];
    }
    assert KeptRows(t) == t by {
      assert t + [] + [] == t;
    }
    assert Weighted(t, w)[0] == AalRow(ExampleKey, Amounts(w * bldg, 0.0, 0.0));
    assert Weighted(t, w) == [AalRow(ExampleKey, Amounts(w * bldg, 0.0, 0.0))];
    assert PeriodRows(t, Some(w)) == Some(Weighted(KeptRows(t), w));
  }

  const ExampleRps: seq<int> := [10, 25, 50]

  function ExampleTables(): seq<seq<LossRow>> {
    [ExampleTable(100.0), ExampleTable(200.0), ExampleTable(300.0)]
  }

  /** The 10-year flood alone contributes 0.03 * 100. */
  lemma ExampleFirstContribution()
    ensures Contributions(ExampleRps, ExampleTables(), 1) == [[AalRow(ExampleKey, Amounts(3.0, 0.0, 0.0))]]
  {
    WeightExample();
    ExampleKept(100.0, 0.03);
    assert Contributions(ExampleRps, ExampleTables(), 0) == [];
  }

  /** Adding the 25-year flood contributes 0.04 * 200. */
  lemma ExampleSecondContribution()
    ensures Contributions(ExampleRps, ExampleTables(), 2)
            == [[AalRow(ExampleKey, Amounts(3.0, 0.0, 0.0))], [AalRow(ExampleKey, Amounts(8.0, 0.0, 0.0))]]
  {
    ExampleFirstContribution();
    WeightExample();
    ExampleKept(200.0, 0.04);
    assert PeriodRows(ExampleTables()[1], Weight(ExampleRps, 1)) == Some([AalRow(ExampleKey, Amounts(8.0, 0.0, 0.0))]);
  }

  /** Each of the three floods contributes its weighted building loss. */
  lemma ExampleContributions()
    ensures Contributions(ExampleRps, ExampleTables(), 3)
            == [[AalRow(ExampleKey, Amounts(3.0, 0.0, 0.0))], [AalRow(ExampleKey, Amounts(8.0, 0.0, 0.0))], [AalRow(ExampleKey, Amounts(3.0, 0.0, 0.0))]]
  {
    ExampleSecondContribution();
    WeightExample();
    ExampleKept(300.0, 0.01);
    assert PeriodRows(ExampleTables()[2], Weight(ExampleRps, 2)) == Some([AalRow(ExampleKey, Amounts(3.0, 0.0, 0.0))]);
  }

  const ExampleRows: seq<AalRow> :=
    [AalRow(ExampleKey, Amounts(3.0, 0.0, 0.0)), AalRow(ExampleKey, Amounts(8.0, 0.0, 0.0)), AalRow(ExampleKey, Amounts(3.0, 0.0, 0.0))]

  lemma ExampleFlatten()
    ensures Flatten([[ExampleRows[0]], [ExampleRows[1]], [ExampleRows[2]]]) == ExampleRows
  {
    var all := ExampleRows;
    var kept := [[all[0]], [all[1]], [all[2]]];
    assert Flatten(kept[..2]) == all[..2] by {
      assert Flatten(kept[..2][..1]) == all[..1];
    }
  }

  /** The example's weighted rows group into one row summing to 14. */
  lemma ExampleGroupSum()
    ensures GroupSum(ExampleRows) == [AalRow(ExampleKey, Amounts(14.0, 0.0, 0.0))]
  {
    var all := ExampleRows;
    assert GroupSum(all[..1]) == all[..1];
    assert all[..2][..1] == all[..1];
    assert GroupSum(all[..2]) == [AalRow(ExampleKey, Amounts(11.0, 0.0, 0.0))];
  }

  lemma ExampleGroups()
    ensures GroupSum(Flatten(Contributions(ExampleRps, ExampleTables(), 3)))
            == [AalRow(ExampleKey, Amounts(14.0, 0.0, 0.0))]
  {
    ExampleContributions();
    ExampleFlatten();
    ExampleGroupSum();
  }

  /**
   * One facility losing 100, 200 and 300 in the 10-, 25- and 50-year floods
   * has a building AAL of 0.03 * 100 + 0.04 * 200 + 0.01 * 300 = 14.
   */
  lemma ThreePeriodExample()
    ensures AnnualizedLoss(ExampleRps, ExampleTables())
            == Ok([SumRow(ExampleKey, Amounts(14.0, 0.0, 0.0), 14.0, Finite(14.0 / 150000.0), Finite(14.0 / 1500.0))])
  {
    ExampleContributions();
    ExampleGroups();
    var row := Summarize(AalRow(ExampleKey, Amounts(14.0, 0.0, 0.0)));
    assert row == SumRow(ExampleKey, Amounts(14.0, 0.0, 0.0), 14.0, Finite(14.0 / 150000.0), Finite(14.0 / 1500.0));
    StrLeIsTotal();
    assert StableSort.SortBy([row], FltyIdOf, StrLe) == [row];
  }
}

=== FILE: costs.dfy ===
/**
 * Content and inventory cost bases (hazpy/flood/modules/UDF.py, lines 492-524).
 * A user-supplied column is `None` when the run did not map it; when it is
 * mapped, a blank cell reads as 0.
 */
module Costs {
  import opened Wrappers
  import opened PyText
  import opened Tables
  import opened Lookup
  import opened Occupancy

  /**
   * Content replacement cost: the user's value truncated to an integer, unless
   * the column is unmapped or that integer is the sentinel -1, in which case the
   * truncated building cost times the occupancy's content multiplier.
   */
  function ContentCost(oc: string, cost: real, user: Option<real>): (r: real)
    ensures user.None? ==> r == Trunc(cost) as real * ContentMultiplier(oc)
    ensures user.Some? && Trunc(user.value) != -1 ==> r == Trunc(user.value) as real
    ensures user.Some? && -2.0 < user.value <= -1.0 ==> r == Trunc(cost) as real * ContentMultiplier(oc)
    ensures cost >= 0.0 && user.None? ==> 0.0 <= r <= 1.5 * cost
  {
    var xt := if user.Some? then Trunc(user.value) else -1;
    if xt == -1 then Trunc(cost) as real * ContentMultiplier(oc) else xt as real
  }

  /** Does this occupancy use the default (economic-table) inventory cost? */
  predicate UsesDefaultInventory(oc: string, user: Option<real>) {
    oc in InventoryList && (user.None? || user.value == -1.0)
  }

  /**
   * Inventory replacement cost.  For an allow-listed occupancy without a user
   * value (or with the sentinel -1) it is annual sales per square foot times the
   * inventory percentage of sales times the area, over 100, from the first
   * economic row of that occupancy; `None` when that row is missing.  Otherwise
   * it is the user value when that exceeds -1, and 0.
   */
  function InventoryCost(oc: string, area: real, user: Option<real>, econ: seq<EconRow>): (r: Option<real>)
    ensures UsesDefaultInventory(oc, user) ==>
              (r.None? <==> forall j :: 0 <= j < |econ| ==> econ[j].occupancy != oc)
    ensures UsesDefaultInventory(oc, user) && r.Some? ==>
              exists j :: 0 <= j < |econ| && econ[j].occupancy == oc &&
                (forall k :: 0 <= k < j ==> econ[k].occupancy != oc) &&
                r.value == econ[j].salesPerSqFt * econ[j].invPctOfSales * area / 100.0
    ensures !UsesDefaultInventory(oc, user) ==> r.Some?
    ensures !UsesDefaultInventory(oc, user) && user.Some? && user.value > -1.0 ==> r == Some(user.value)
    ensures !UsesDefaultInventory(oc, user) && (user.None? || user.value <= -1.0) ==> r == Some(0.0)
  {
    var xt := if user.Some? then user.value else -1.0;
    if oc in InventoryList && xt == -1.0 then
      match FindFirst(econ, (e: EconRow) => e.occupancy == oc)
      case None => None
      case Some(j) => Some(econ[j].salesPerSqFt * econ[j].invPctOfSales * area / 100.0)
    else if xt > -1.0 then Some(xt)
    else Some(0.0)
  }

  /** A RES1 facility worth 100000 with no content column gets a content cost of 50000. */
  lemma Res1ContentCostExample()
    ensures ContentCost("RES1", 100000.0, None) == 50000.0
  {
    assert "RES1" in ContentHalf;
  }
}

=== FILE: curves.dfy ===
/**
 * Depth clamping, the column keys of a depth-damage row, and linear
 * interpolation between the two integer depths around the flood depth
 * (hazpy/flood/modules/UDF.py, lines 580-605 and 709-715).
 */
module Curves {
  import opened Wrappers
  import opened PyText
  import opened Tables

  const MinDepth: real := -4.0
  const MaxDepth: real := 24.0

  /** The depth used for curve lookup: capped at 24 feet, floored at -4 feet. */
  function Clamp(d: real): (r: real)
    ensures MinDepth <= r <= MaxDepth
    ensures MinDepth <= d <= MaxDepth ==> r == d
    ensures d > MaxDepth ==> r == MaxDepth
    ensures d < MinDepth ==> r == MinDepth
  {
    var capped := if d > 24.0 then 24.0 else d;
    if capped < -4.0 then -4.0 else capped
  }

  /** The column holding the percentage at integer depth `v`: `m` for negative, `p` otherwise, then |v|. */
  function ColumnKey(v: int): (k: string)
    ensures |k| >= 2
    ensures k[0] == (if v < 0 then 'm' else 'p')
    ensures k[1..] == DecimalString(Abs(v))
  {
    (if v < 0 then "m" else "p") + DecimalString(Abs(v))
  }

  /** Different integer depths never share a column. */
  lemma ColumnKeyInjective(a: int, b: int)
    ensures ColumnKey(a) == ColumnKey(b) <==> a == b
  {
    if ColumnKey(a) == ColumnKey(b) {
      assert ColumnKey(a)[1..] == ColumnKey(b)[1..];
      DecimalStringInjective(Abs(a), Abs(b));
    }
  }

  lemma ColumnKeyExamples()
    ensures ColumnKey(-4) == "m4" && ColumnKey(-1) == "m1"
    ensures ColumnKey(0) == "p0" && ColumnKey(24) == "p24"
  {
    OneDigit(4);
    OneDigit(1);
    OneDigit(0);
    TwoDigits(24);
  }

  /** Column below the depth (`floor`). */
  function LowerKey(d: real): string {
    ColumnKey(Floor(d))
  }

  /** Column above the depth (`ceil`). */
  function UpperKey(d: real): string {
    ColumnKey(Ceil(d))
  }

  /** Between -1 and 0 the lower column is `m1` and the upper one `p0`. */
  lemma KeysAroundZero(d: real)
    requires -1.0 < d < 0.0
    ensures LowerKey(d) == "m1" && UpperKey(d) == "p0"
  {
    assert Floor(d) == -1;
    assert Ceil(d) == 0;
  }

  /**
   * Damage ratio between two tabulated percentages: the fraction of the way
   * from `floor(d)` to `d` picks the point between them, divided by 100.
   */
  function Interpolate(lower: real, upper: real, d: real): (r: real)
    ensures lower <= upper ==> lower / 100.0 <= r <= upper / 100.0
    ensures upper <= lower ==> upper / 100.0 <= r <= lower / 100.0
    ensures d == Floor(d) as real ==> r == lower / 100.0
  {
    var frac := d - Floor(d) as real;
    PointBetween(frac, lower, upper);
    (lower + frac * (upper - lower)) / 100.0
  }

  /** The point a fraction `f` of the way from `lo` to `hi` lies between them, and is `lo` at `f == 0`. */
  lemma PointBetween(f: real, lo: real, hi: real)
    requires 0.0 <= f < 1.0
    ensures lo <= hi ==> lo <= lo + f * (hi - lo) <= hi
    ensures hi <= lo ==> hi <= lo + f * (hi - lo) <= lo
    ensures f == 0.0 ==> lo + f * (hi - lo) == lo
  {
    if lo <= hi {
      RisingBetween(f, lo, hi);
    }
    if hi <= lo {
      FallingBetween(f, lo, hi);
    }
  }

  lemma MulNonNegative(a: real, b: real)
    requires 0.0 <= a && 0.0 <= b
    ensures 0.0 <= a * b
  {
  }

  lemma ComplementProduct(f: real, d: real)
    ensures (1.0 - f) * d == d - f * d
  {
  }

  lemma RisingBetween(f: real, lo: real, hi: real)
    requires 0.0 <= f < 1.0 && lo <= hi
    ensures lo <= lo + f * (hi - lo) <= hi
  {
    var d := hi - lo;
    MulNonNegative(f, d);
    MulNonNegative(1.0 - f, d);
    ComplementProduct(f, d);
  }

  lemma FallingBetween(f: real, lo: real, hi: real)
    requires 0.0 <= f < 1.0 && hi <= lo
    ensures hi <= lo + f * (hi - lo) <= lo
  {
    var d := lo - hi;
    MulNonNegative(f, d);
    MulNonNegative(1.0 - f, d);
    ComplementProduct(f, d);
    assert f * (hi - lo) == -(f * d);
  }

  /** The row has a percentage for every integer depth of the clamp range. */
  ghost predicate CompleteCurve(row: DdfRow) {
    forall v :: -4 <= v <= 24 ==> ColumnKey(v) in row.pct
  }

  /**
   * The damage ratio a row gives at depth `d`; a missing column raises
   * `KeyError` in the source, which aborts the run.
   */
  function DamageRatio(row: DdfRow, d: real): (r: Result<real, RunError>)
    ensures r.Ok? <==> LowerKey(d) in row.pct && UpperKey(d) in row.pct
    ensures r.Ok? ==> r.value == Interpolate(row.pct[LowerKey(d)], row.pct[UpperKey(d)], d)
    ensures r.Err? ==> r.error.MissingColumn?
  {
    var lk := LowerKey(d);
    var uk := UpperKey(d);
    if lk !in row.pct then Err(MissingColumn(lk))
    else if uk !in row.pct then Err(MissingColumn(uk))
    else Ok(Interpolate(row.pct[lk], row.pct[uk], d))
  }

  /** A complete row never aborts the lookup for a clamped depth. */
  lemma CompleteCurveNeverMisses(row: DdfRow, d: real)
    requires CompleteCurve(row)
    ensures DamageRatio(row, Clamp(d)).Ok?
  {
    var c := Clamp(d);
    assert -4 <= Floor(c) <= 24;
    assert -4 <= Ceil(c) <= 24;
  }

  /** At an integer depth the ratio is exactly the tabulated percentage over 100. */
  lemma IntegerDepthIsExact(row: DdfRow, v: int)
    requires ColumnKey(v) in row.pct
    ensures DamageRatio(row, v as real) == Ok(row.pct[ColumnKey(v)] / 100.0)
  {
    assert Floor(v as real) == v;
    assert Ceil(v as real) == v;
  }

  /** The ratio lies between the two tabulated neighbours, over 100. */
  lemma RatioBetweenNeighbours(row: DdfRow, d: real)
    requires DamageRatio(row, d).Ok?
    ensures var lo := row.pct[LowerKey(d)] / 100.0;
            var hi := row.pct[UpperKey(d)] / 100.0;
            (lo <= DamageRatio(row, d).value <= hi) || (hi <= DamageRatio(row, d).value <= lo)
  {
  }
}

=== FILE: fieldmapping.dfy ===
/**
 * Matching the columns of a user-defined-facility (UDF) CSV file to the
 * canonical fields the flood-loss run needs (python_env/udf_field_mapping.py),
 * and the positional unpacking of the ordered result into the sixteen column
 * names the run reads (hazpy/flood/modules/UDF.py:116).
 *
 * The four JSON tables are values here: the field lookup is the ordered list
 * of its items (canonical key, candidate column names), and the display-name,
 * required-flag and display-order tables are maps.
 */
module FieldMapping {
  import opened Wrappers
  import opened Lookup
  import StableSort

  /** One mapped field: display name, matched CSV column (or ""), and "Required" or "". */
  datatype MappedField = MappedField(displayName: string, fileField: string, required: string)

  const RequiredMark: string := "Required"

  /**
   * The CSV column matched to a canonical field: the last column, in file
   * order, that is one of the candidate names, or "" when none is.
   */
  function MatchedField(fileFields: seq<string>, candidates: seq<string>): (m: string)
    ensures (forall j :: 0 <= j < |fileFields| ==> fileFields[j] !in candidates) ==> m == ""
    ensures (exists j :: 0 <= j < |fileFields| && fileFields[j] in candidates) ==>
              exists j :: 0 <= j < |fileFields| && fileFields[j] == m && m in candidates
                          && forall l :: j < l < |fileFields| ==> fileFields[l] !in candidates
  {
    match FindLast(fileFields, (f: string) => f in candidates)
    case None => ""
    case Some(j) => fileFields[j]
  }

  /** When two candidate spellings are both columns, the later column wins. */
  lemma LaterColumnWins()
    ensures MatchedField(["UDF_ID", "Occ", "FltyId"], ["FltyId", "UDF_ID"]) == "FltyId"
    ensures MatchedField(["Occ"], ["FltyId", "UDF_ID"]) == ""
  {
    assert "FltyId" in ["FltyId", "UDF_ID"];
    assert "Occ" !in ["FltyId", "UDF_ID"];
  }

  /** The required flag: "Required" exactly when the table maps the key to 1. */
  function RequiredFlag(key: string, required: map<string, int>): (flag: string)
    ensures flag == RequiredMark <==> key in required && required[key] == 1
    ensures flag != RequiredMark ==> flag == ""
  {
    if key in required && required[key] == 1 then RequiredMark else ""
  }

  /**
   * One tuple per lookup entry, in lookup order.  A canonical key without a
   * display name is a `KeyError` that ends the mapping: `None`.
   */
  function MapUdfFields(lookup: seq<(string, seq<string>)>, names: map<string, string>,
                        fileFields: seq<string>, required: map<string, int>): (r: Option<seq<MappedField>>)
    ensures r.None? <==> exists i :: 0 <= i < |lookup| && lookup[i].0 !in names
    ensures r.Some? ==> |r.value| == |lookup|
    ensures r.Some? ==> forall i :: 0 <= i < |lookup| ==>
              && r.value[i].displayName == names[lookup[i].0]
              && r.value[i].fileField == MatchedField(fileFields, lookup[i].1)
              && r.value[i].required == RequiredFlag(lookup[i].0, required)
  {
    if |lookup| == 0 then Some([])
    else
      var init := lookup[..|lookup| - 1];
      var entry := lookup[|lookup| - 1];
      assert forall i :: 0 <= i < |init| ==> init[i] == lookup[i];
      match MapUdfFields(init, names, fileFields, required)
      case None => None
      case Some(done) =>
        if entry.0 !in names then None
        else Some(done + [MappedField(names[entry.0], MatchedField(fileFields, entry.1), RequiredFlag(entry.0, required))])
  }

  /** Every display name has a rank: the only way the rank sort cannot fail on two or more fields. */
  ghost predicate AllRanked(fields: seq<MappedField>, order: map<string, int>) {
    forall i :: 0 <= i < |fields| ==> fields[i].displayName in order
  }

  function RankOf(order: map<string, int>): MappedField -> int {
    (f: MappedField) => if f.displayName in order then order[f.displayName] else 0
  }

  function IntLe(a: int, b: int): bool {
    a <= b
  }

  lemma IntLeIsTotal()
    ensures StableSort.TotalOrder(IntLe)
  {
  }

  /** The column component of each tuple. */
  function FileFields(fields: seq<MappedField>): (r: seq<string>)
    ensures |r| == |fields|
  {
    if |fields| == 0 then [] else [fields[0].fileField] + FileFields(fields[1..])
  }

  lemma {:induction false} FileFieldsIndex(fields: seq<MappedField>)
    ensures forall i :: 0 <= i < |fields| ==> FileFields(fields)[i] == fields[i].fileField
    decreases |fields|
  {
    if |fields| > 0 {
      FileFieldsIndex(fields[1..]);
      assert forall i :: 1 <= i < |fields| ==> fields[1..][i - 1] == fields[i];
    }
  }

  lemma {:induction false} FileFieldsAppend(x: seq<MappedField>, y: seq<MappedField>)
    ensures FileFields(x + y) == FileFields(x) + FileFields(y)
    decreases |x|
  {
    if |x| > 0 {
      assert (x + y)[1..] == x[1..] + y;
      FileFieldsAppend(x[1..], y);
    } else {
      assert x + y == y;
    }
  }

  /**
   * The tuples sorted by the rank of their display name, stably.  Comparing a
   * missing rank (`None`) raises, and with two or more tuples every tuple
   * takes part in a comparison, so a missing rank fails exactly then.
   */
  function SortedByRank(fields: seq<MappedField>, order: map<string, int>): (r: Option<seq<MappedField>>)
    ensures r.None? <==> |fields| >= 2 && !AllRanked(fields, order)
    ensures r.Some? ==> multiset(r.value) == multiset(fields)
    ensures r.Some? && |fields| >= 2 ==> AllRanked(r.value, order)
    ensures r.Some? ==> forall i, j :: 0 <= i < j < |r.value| ==> RankOf(order)(r.value[i]) <= RankOf(order)(r.value[j])
    ensures r.Some? ==> forall rank :: StableSort.Keep(r.value, RankOf(order), rank) == StableSort.Keep(fields, RankOf(order), rank)
  {
    if |fields| >= 2 && exists i :: 0 <= i < |fields| && fields[i].displayName !in order then None
    else
      IntLeIsTotal();
      var sorted := StableSort.SortBy(fields, RankOf(order), IntLe);
      if |fields| >= 2 then
        RankedStaysRanked(fields, sorted, order);
        Some(sorted)
      else Some(sorted)
  }

  lemma RankedStaysRanked(fields: seq<MappedField>, sorted: seq<MappedField>, order: map<string, int>)
    requires AllRanked(fields, order)
    requires multiset(sorted) == multiset(fields)
    requires StableSort.Sorted(sorted, RankOf(order), IntLe)
    ensures AllRanked(sorted, order)
  {
    forall i | 0 <= i < |sorted|
      ensures sorted[i].displayName in order
    {
      assert sorted[i] in multiset(fields);
    }
  }

  /** `_order_fields`: the matched columns, ordered by the rank of their display names. */
  function OrderFields(fields: seq<MappedField>, order: map<string, int>): (r: Option<seq<string>>)
    ensures r.None? <==> |fields| >= 2 && !AllRanked(fields, order)
    ensures r.Some? ==> |r.value| == |fields|
    ensures r.Some? ==> multiset(r.value) == multiset(FileFields(fields))
    ensures r.Some? ==> SortedByRank(fields, order).Some?
    ensures r.Some? ==> forall i :: 0 <= i < |r.value| ==> r.value[i] == SortedByRank(fields, order).value[i].fileField
  {
    match SortedByRank(fields, order)
    case None => None
    case Some(sorted) =>
      ProjectPermutation(sorted, fields);
      FileFieldsIndex(sorted);
      Some(FileFields(sorted))
  }

  lemma {:induction false} ProjectPermutation(a: seq<MappedField>, b: seq<MappedField>)
    requires multiset(a) == multiset(b)
    ensures multiset(FileFields(a)) == multiset(FileFields(b))
    decreases |a|
  {
    if |a| > 0 {
      var x := a[0];
      var rest := a[1..];
      assert x in b by {
        assert x in multiset(b);
      }
      var k :| 0 <= k < |b| && b[k] == x;
      var b' := b[..k] + b[k + 1..];
      assert multiset(rest) == multiset(b') by {
        assert a[..0] + a[1..] == rest;
        RemoveAt(a, 0);
        RemoveAt(b, k);
      }
      ProjectPermutation(rest, b');
      ProjectStep(a, b, k);
    } else {
      assert |b| == |multiset(b)| == 0;
    }
  }

  /** Matching the head of `a` with `b[k]` extends a projected permutation of the rests to the whole. */
  lemma ProjectStep(a: seq<MappedField>, b: seq<MappedField>, k: nat)
    requires |a| > 0 && k < |b| && b[k] == a[0]
    requires multiset(FileFields(a[1..])) == multiset(FileFields(b[..k] + b[k + 1..]))
    ensures multiset(FileFields(a)) == multiset(FileFields(b))
  {
    ProjectRemoveAt(b, k);
  }

  lemma RemoveAt<T>(s: seq<T>, k: nat)
    requires k < |s|
    ensures multiset(s[..k] + s[k + 1..]) == multiset(s) - multiset{s[k]}
  {
    assert s == s[..k] + [s[k]] + s[k + 1..];
  }

  /** Dropping the tuple at `k` drops exactly its column from the projection. */
  lemma ProjectRemoveAt(s: seq<MappedField>, k: nat)
    requires k < |s|
    ensures multiset(FileFields(s)) == multiset(FileFields(s[..k] + s[k + 1..])) + multiset{s[k].fileField}
  {
    FileFieldsSplit(s, k);
    FileFieldsAppend(s[..k], s[k + 1..]);
    MultisetAround(FileFields(s[..k]), s[k].fileField, FileFields(s[k + 1..]));
  }

  lemma FileFieldsSplit(s: seq<MappedField>, k: nat)
    requires k < |s|
    ensures FileFields(s) == FileFields(s[..k]) + ([s[k].fileField] + FileFields(s[k + 1..]))
  {
    var pre := s[..k];
    var post := s[k + 1..];
    calc {
      FileFields(s);
    == { SplitAround(s, k); }
      FileFields(pre + ([s[k]] + post));
    == { FileFieldsAppend(pre, [s[k]] + post); }
      FileFields(pre) + FileFields([s[k]] + post);
    == { FileFieldsCons(s[k], post); }
      FileFields(pre) + ([s[k].fileField] + FileFields(post));
    }
  }

  lemma SplitAround<T>(s: seq<T>, k: nat)
    requires k < |s|
    ensures s == s[..k] + ([s[k]] + s[k + 1..])
  {
  }

  lemma FileFieldsCons(x: MappedField, rest: seq<MappedField>)
    ensures FileFields([x] + rest) == [x.fileField] + FileFields(rest)
  {
    assert ([x] + rest)[1..] == rest;
  }

  lemma MultisetAround<T>(head: seq<T>, x: T, tail: seq<T>)
    ensures multiset(head + ([x] + tail)) == multiset(head + tail) + multiset{x}
  {
  }

  /** The sixteen column names the flood-loss run reads, in the order it unpacks them. */
  datatype UdfColumns = UdfColumns(
    fltyId: string, occupancy: string, cost: string, area: string,
    numStories: string, foundationType: string, firstFloorHt: string, contentCost: string,
    bldgDdfId: string, contDdfId: string, invDdfId: string, invCost: string,
    soi: string, latitude: string, longitude: string, floodType: string)

  /** Positional unpacking: anything but sixteen names is a `ValueError`. */
  function Unpack(fmap: seq<string>): (r: Option<UdfColumns>)
    ensures r.None? <==> |fmap| != 16
    ensures r.Some? ==> r.value.fltyId == fmap[0] && r.value.occupancy == fmap[1] && r.value.floodType == fmap[15]
  {
    if |fmap| != 16 then None
    else Some(UdfColumns(fmap[0], fmap[1], fmap[2], fmap[3], fmap[4], fmap[5], fmap[6], fmap[7],
                         fmap[8], fmap[9], fmap[10], fmap[11], fmap[12], fmap[13], fmap[14], fmap[15]))
  }

  /** The mapped, ordered columns unpack exactly when the lookup has sixteen entries. */
  lemma MappingUnpacks(lookup: seq<(string, seq<string>)>, names: map<string, string>,
                       fileFields: seq<string>, required: map<string, int>, order: map<string, int>)
    requires MapUdfFields(lookup, names, fileFields, required).Some?
    requires OrderFields(MapUdfFields(lookup, names, fileFields, required).value, order).Some?
    ensures Unpack(OrderFields(MapUdfFields(lookup, names, fileFields, required).value, order).value).Some?
            <==> |lookup| == 16
  {
  }
}

=== FILE: fold.dfy ===
/**
 * A left fold that threads a state through a sequence and stops at the first
 * error: the shape of the flood-loss record loop, where a variable left over
 * from one record can be read by the next and any exception ends the run.
 */
module Fold {
  import opened Wrappers

  /**
   * Apply `step` to the first `n` elements in order, each with its index and
   * the state the previous step left; collect the outputs.
   */
  function FoldPrefix<X, Y, S, E>(xs: seq<X>, n: nat, step: (X, nat, S) -> Result<(Y, S), E>, init: S)
    : (r: Result<(seq<Y>, S), E>)
    requires n <= |xs|
    ensures r.Ok? ==> |r.value.0| == n
    ensures n == 0 ==> r == Ok(([], init))
    decreases n
  {
    if n == 0 then Ok(([], init))
    else
      match FoldPrefix(xs, n - 1, step, init)
      case Err(e) => Err(e)
      case Ok(done) =>
        match step(xs[n - 1], n - 1, done.1)
        case Err(e) => Err(e)
        case Ok(out) => Ok((done.0 + [out.0], out.1))
  }

  /** One more element: the fold of `n + 1` extends the fold of `n` by one step. */
  lemma FoldStep<X, Y, S, E>(xs: seq<X>, n: nat, step: (X, nat, S) -> Result<(Y, S), E>, init: S, ys: seq<Y>, s: S)
    requires n < |xs|
    requires FoldPrefix(xs, n, step, init) == Ok((ys, s))
    ensures step(xs[n], n, s).Err? ==> FoldPrefix(xs, n + 1, step, init) == Err(step(xs[n], n, s).error)
    ensures step(xs[n], n, s).Ok? ==>
              FoldPrefix(xs, n + 1, step, init) == Ok((ys + [step(xs[n], n, s).value.0], step(xs[n], n, s).value.1))
  {
  }

  /** Once a step fails, every longer prefix fails with the same error. */
  lemma {:induction false} ErrPersists<X, Y, S, E>(xs: seq<X>, n: nat, m: nat, step: (X, nat, S) -> Result<(Y, S), E>, init: S)
    requires n <= m <= |xs|
    requires FoldPrefix(xs, n, step, init).Err?
    ensures FoldPrefix(xs, m, step, init) == FoldPrefix(xs, n, step, init)
    decreases m
  {
    if n < m {
      ErrPersists(xs, n, m - 1, step, init);
    }
  }

  /**
   * A relation every successful step establishes between its element and its
   * output holds, index by index, between the input and the fold's outputs.
   */
  lemma {:induction false} FoldOutputs<X, Y, S, E>(xs: seq<X>, n: nat, step: (X, nat, S) -> Result<(Y, S), E>, init: S,
                                                 rel: (X, Y) -> bool)
    requires n <= |xs|
    requires forall x, i, s :: step(x, i, s).Ok? ==> rel(x, step(x, i, s).value.0)
    requires FoldPrefix(xs, n, step, init).Ok?
    ensures forall i :: 0 <= i < n ==> rel(xs[i], FoldPrefix(xs, n, step, init).value.0[i])
    decreases n
  {
    if n > 0 {
      var done := FoldPrefix(xs, n - 1, step, init);
      assert done.Ok?;
      FoldOutputs(xs, n - 1, step, init, rel);
      var ys := FoldPrefix(xs, n, step, init).value.0;
      var last := step(xs[n - 1], n - 1, done.value.1);
      assert ys == done.value.0 + [last.value.0];
      StepRelates(step, rel, xs[n - 1], n - 1, done.value.1);
      forall i | 0 <= i < n
        ensures rel(xs[i], ys[i])
      {
        if i < n - 1 {
          assert ys[i] == done.value.0[i];
        }
      }
    }
  }

  lemma StepRelates<X, Y, S, E>(step: (X, nat, S) -> Result<(Y, S), E>, rel: (X, Y) -> bool, x: X, i: nat, s: S)
    requires forall x, i, s :: step(x, i, s).Ok? ==> rel(x, step(x, i, s).value.0)
    ensures step(x, i, s).Ok? ==> rel(x, step(x, i, s).value.0)
  {
  }
}

=== FILE: lookup.dfy ===
/**
 * The two ways the flood-loss code scans a lookup table: a loop that stops at
 * the first matching row (`break`), and a loop without `break` whose last
 * matching row is the one left in the loop variable.
 */
module Lookup {
  import opened Wrappers

  /** The index of the first element satisfying `p`, if any. */
  function FindFirst<T>(s: seq<T>, p: T -> bool): (r: Option<nat>)
    ensures r.Some? ==> r.value < |s| && p(s[r.value])
    ensures r.Some? ==> forall j :: 0 <= j < r.value ==> !p(s[j])
    ensures r.None? <==> forall j :: 0 <= j < |s| ==> !p(s[j])
  {
    if |s| == 0 then None
    else if p(s[0]) then Some(0)
    else
      match FindFirst(s[1..], p)
      case None => None
      case Some(i) => Some(i + 1)
  }

  /** The index of the last element satisfying `p`, if any. */
  function FindLast<T>(s: seq<T>, p: T -> bool): (r: Option<nat>)
    ensures r.Some? ==> r.value < |s| && p(s[r.value])
    ensures r.Some? ==> forall j :: r.value < j < |s| ==> !p(s[j])
    ensures r.None? <==> forall j :: 0 <= j < |s| ==> !p(s[j])
  {
    if |s| == 0 then None
    else if p(s[|s| - 1]) then Some(|s| - 1)
    else FindLast(s[..|s| - 1], p)
  }
}

=== FILE: occupancy.dfy ===
/**
 * Specific Occupancy ID (SOID) derivation and the occupancy-class lists that
 * drive the content-cost multiplier and the default inventory basis
 * (hazpy/flood/modules/UDF.py, lines 253-262 and 455-481).
 */
module Occupancy {
  import opened PyText

  /** Occupancy classes whose default content cost is half the building cost. */
  const ContentHalf: seq<string> :=
    ["RES1", "RES2", "RES3A", "RES3B", "RES3C", "RES3D", "RES3E", "RES3F", "RES4", "RES5", "RES6", "COM10"]
  /** Occupancy classes whose default content cost equals the building cost. */
  const ContentFull: seq<string> :=
    ["COM1", "COM2", "COM3", "COM4", "COM5", "COM8", "COM9", "IND6", "AGR1", "REL1", "GOV1", "EDU1"]
  /** Occupancy classes whose default content cost is one and a half times the building cost. */
  const ContentOneAndHalf: seq<string> :=
    ["COM6", "COM7", "IND1", "IND2", "IND3", "IND4", "IND5", "GOV2", "EDU2"]
  /** Occupancy classes that have a default inventory cost and inventory damage function. */
  const InventoryList: seq<string> :=
    ["COM1", "COM2", "IND1", "IND2", "IND3", "IND4", "IND5", "IND6", "AGR1"]

  /** The SOID prefix: first letter plus everything after position 3, with `REL1` special-cased. */
  function SoidPrefix(oc: string): (r: string)
    ensures oc == "REL1" ==> r == "RE1"
    ensures oc != "REL1" && |oc| >= 4 ==> r == [oc[0]] + oc[3..]
    ensures |oc| == 3 ==> r == [oc[0]] + oc
    ensures |oc| <= 2 ==> r == oc
  {
    if oc != "REL1" then Prefix(oc, 1) + Suffix(oc, -(|oc| - 3)) else "RE1"
  }

  /** The SOID suffix: `B` (basement) exactly when the foundation type is 4. */
  function SoidSuffix(foundation: real): (r: string)
    ensures r == "B" <==> foundation == 4.0
    ensures r == "N" <==> foundation != 4.0
  {
    if foundation == 4.0 then "B" else "N"
  }

  predicate IsWhole(x: real) {
    x == x.Floor as real
  }

  /** The story-count character of a SOID, bucketed per occupancy family. */
  function SoidMiddle(oc: string, stories: real): (r: string)
    // RES3: 1 / 3 / 5 stories
    ensures Prefix(oc, 4) == "RES3" ==> (r == "5" <==> stories > 4.0)
    ensures Prefix(oc, 4) == "RES3" ==> (r == "3" <==> 2.0 < stories <= 4.0)
    ensures Prefix(oc, 4) == "RES3" ==> (r == "1" <==> stories <= 2.0)
    // RES1: stories capped at 3, a whole count prints as itself, otherwise split level
    ensures Prefix(oc, 4) == "RES1" && stories > 3.0 ==> r == "3"
    ensures Prefix(oc, 4) == "RES1" && stories <= 3.0 && IsWhole(stories) ==> r == DecimalString(stories.Floor)
    ensures Prefix(oc, 4) == "RES1" && !IsWhole(stories) && stories <= 3.0 ==> r == "S"
    // RES2: manufactured housing is one story by definition
    ensures Prefix(oc, 4) == "RES2" ==> r == "1"
    // every other class: low / mid / high rise
    ensures Prefix(oc, 4) !in {"RES1", "RES2", "RES3"} ==> r in {"L", "M", "H"}
    ensures Prefix(oc, 4) !in {"RES1", "RES2", "RES3"} ==> (r == "L" <==> stories <= 3.0)
    ensures Prefix(oc, 4) !in {"RES1", "RES2", "RES3"} ==> (r == "H" <==> stories > 6.0)
  {
    if Prefix(oc, 4) == "RES3" then
      (if stories > 4.0 then "5" else if stories > 2.0 then "3" else "1")
    else if Prefix(oc, 4) == "RES1" then
      var capped := if stories > 3.0 then 3.0 else stories;
      if capped - capped.Floor as real == 0.0 then DecimalString(capped.Floor) else "S"
    else if Prefix(oc, 4) == "RES2" then
      "1"
    else
      (if stories > 6.0 then "H" else if stories > 3.0 then "M" else "L")
  }

  /** The Specific Occupancy ID: prefix, story bucket, basement flag. */
  function Soid(oc: string, stories: real, foundation: real): (r: string)
    ensures |r| == |SoidPrefix(oc)| + |SoidMiddle(oc, stories)| + 1
    ensures r[..|SoidPrefix(oc)|] == SoidPrefix(oc)
    ensures r[|SoidPrefix(oc)|..|r| - 1] == SoidMiddle(oc, stories)
    ensures r[|r| - 1] == (if foundation == 4.0 then 'B' else 'N')
  {
    var pre := SoidPrefix(oc);
    var mid := SoidMiddle(oc, stories);
    var suf := SoidSuffix(foundation);
    pre + mid + suf
  }

  /** `REL1` always yields the prefix `RE1`, whatever the stories and foundation. */
  lemma Rel1Prefix(stories: real, foundation: real)
    ensures Soid("REL1", stories, foundation)[..3] == "RE1"
  {
  }

  /** A RES1 record with more than three stories gets the SOID of a three-story one. */
  lemma Res1StoriesCapped(stories: real, foundation: real)
    requires stories > 3.0
    ensures Soid("RES1", stories, foundation) == Soid("RES1", 3.0, foundation)
    ensures Soid("RES1", stories, foundation) == "R13" + SoidSuffix(foundation)
  {
    assert Prefix("RES1", 4) == "RES1";
    OneDigit(3);
  }

  /** Worked SOIDs for the main occupancy families. */
  lemma SoidExamples()
    ensures Soid("RES1", 1.0, 4.0) == "R11B"
    ensures Soid("RES1", 1.5, 2.0) == "R1SN"
    ensures Soid("RES3A", 3.0, 2.0) == "R3A3N"
    ensures Soid("COM10", 7.0, 4.0) == "C10HB"
    ensures Soid("REL1", 2.0, 1.0) == "RE1LN"
    ensures Soid("RES2", 2.0, 1.0) == "R21N"
  {
    OneStoryBasementSoid();
    SplitLevelSoid();
    Res3Soid();
    HighRiseSoid();
    Rel1Soid();
    Res2Soid();
  }

  /** A one-story RES1 on a basement. */
  lemma OneStoryBasementSoid()
    ensures Soid("RES1", 1.0, 4.0) == "R11B"
  {
    assert Prefix("RES1", 4) == "RES1";
    OneDigit(1);
  }

  /** A fractional story count makes a RES1 split level. */
  lemma SplitLevelSoid()
    ensures Soid("RES1", 1.5, 2.0) == "R1SN"
  {
    assert Prefix("RES1", 4) == "RES1";
    assert (1.5).Floor == 1;
  }

  /** A three-story RES3A falls in the middle RES3 bucket. */
  lemma Res3Soid()
    ensures Soid("RES3A", 3.0, 2.0) == "R3A3N"
  {
    assert Prefix("RES3A", 4) == "RES3";
  }

  /** Seven stories make a COM10 high-rise. */
  lemma HighRiseSoid()
    ensures Soid("COM10", 7.0, 4.0) == "C10HB"
  {
    assert Prefix("COM10", 4) == "COM1";
  }

  /** REL1 takes the special prefix and the low-rise bucket. */
  lemma Rel1Soid()
    ensures Soid("REL1", 2.0, 1.0) == "RE1LN"
  {
    assert Prefix("REL1", 4) == "REL1";
  }

  /** Manufactured housing is one story whatever the count says. */
  lemma Res2Soid()
    ensures Soid("RES2", 2.0, 1.0) == "R21N"
  {
    assert Prefix("RES2", 4) == "RES2";
  }

  /** The content-cost multiplier: a fixed partition of occupancy classes, 0 outside it. */
  function ContentMultiplier(oc: string): (r: real)
    ensures r == 0.5 <==> oc in ContentHalf
    ensures r == 1.0 <==> oc in ContentFull
    ensures r == 1.5 <==> oc in ContentOneAndHalf
    ensures r == 0.0 <==> oc !in ContentHalf + ContentFull + ContentOneAndHalf
  {
    if oc in ContentHalf then 0.5
    else if oc in ContentFull then 1.0
    else if oc in ContentOneAndHalf then 1.5
    else 0.0
  }
}

=== FILE: pelv.dfy ===
/**
 * Two small helpers beside the PELV lookups in hazpy/flood/modules/UDF.py:
 * the flood type's choice of worksheet in the PELV curve workbook, and the
 * (previous, item, next) triples built over a list of curves.
 */
module Pelv {
  import opened Wrappers

  /** Flood types read from the A-zone sheet; every other type reads the V-zone sheet. */
  const AZoneTypes: set<string> := {"Riverine", "CAE", "Coastal A"}

  const SheetA: string := "PELV A"
  const SheetV: string := "PELV V"

  /** The worksheet `read_pelv_curves` opens for a flood type. */
  function PelvSheet(floodType: string): (sheet: string)
    ensures sheet == SheetA <==> floodType in AZoneTypes
    ensures sheet == SheetV <==> floodType !in AZoneTypes
  {
    if floodType in AZoneTypes then SheetA else SheetV
  }

  /** Coastal V and any unknown spelling fall to the V-zone sheet. */
  lemma SheetExamples()
    ensures PelvSheet("Coastal A") == SheetA
    ensures PelvSheet("Coastal V") == SheetV
    ensures PelvSheet("riverine") == SheetV
  {
    assert "riverine" != "Riverine";
    assert "Coastal V" != "Coastal A";
  }

  /** Each element wrapped in `Some`. */
  function Somes<T>(s: seq<T>): (r: seq<Option<T>>)
    ensures |r| == |s|
    ensures forall i :: 0 <= i < |s| ==> r[i] == Some(s[i])
  {
    seq(|s|, i requires 0 <= i < |s| => Some(s[i]))
  }

  /** Python's three-way `zip`: stops at the shortest argument. */
  function Zip3<A, B, C>(a: seq<A>, b: seq<B>, c: seq<C>): (r: seq<(A, B, C)>)
    ensures |r| <= |a| && |r| <= |b| && |r| <= |c|
    ensures |r| == |a| || |r| == |b| || |r| == |c|
    ensures forall i :: 0 <= i < |r| ==> r[i] == (a[i], b[i], c[i])
  {
    if |a| == 0 || |b| == 0 || |c| == 0 then []
    else [(a[0], b[0], c[0])] + Zip3(a[1..], b[1..], c[1..])
  }

  /**
   * `previous_and_next`: the items zipped with the items shifted right behind
   * a `None` and shifted left in front of a `None`.
   */
  function PreviousAndNext<T>(s: seq<T>): (r: seq<(Option<T>, T, Option<T>)>)
    ensures |r| == |s|
    ensures forall i :: 0 <= i < |s| ==> r[i].1 == s[i]
    ensures forall i :: 0 <= i < |s| ==> r[i].0 == (if i == 0 then None else Some(s[i - 1]))
    ensures forall i :: 0 <= i < |s| ==> r[i].2 == (if i == |s| - 1 then None else Some(s[i + 1]))
  {
    var prevs := [None] + Somes(s);
    var nexts := (if |s| == 0 then [] else Somes(s[1..])) + [None];
    Zip3(prevs, s, nexts)
  }

  /** Neighbouring triples overlap: each triple's next is the following item, and its item the following triple's previous. */
  lemma TriplesChain<T>(s: seq<T>, i: nat)
    requires i + 1 < |s|
    ensures PreviousAndNext(s)[i].2 == Some(PreviousAndNext(s)[i + 1].1)
    ensures PreviousAndNext(s)[i + 1].0 == Some(PreviousAndNext(s)[i].1)
  {
  }

  /** Only the first triple lacks a previous item and only the last lacks a next one. */
  lemma EndsAreOpen<T>(s: seq<T>, i: nat)
    requires i < |s|
    ensures PreviousAndNext(s)[i].0.None? <==> i == 0
    ensures PreviousAndNext(s)[i].2.None? <==> i == |s| - 1
  {
  }
}

=== FILE: pipeline.dfy ===
/**
 * The per-facility flood-loss pipeline for one depth grid
 * (hazpy/flood/modules/UDF.py, lines 367-1053) and the depth-sorted result
 * (lines 1159-1160).  Each facility is sampled on the grid, given a SOID and
 * cost bases, and, when the raster shows water, given building, content and
 * inventory damage, debris tonnage and restoration days.
 */
module Pipeline {
  import opened Wrappers
  import opened PyText
  import opened Tables
  import opened Occupancy
  import opened Raster
  import opened Costs
  import opened Curves
  import opened Resolver
  import opened Secondary
  import StableSort
  import Fold

  /**
   * One input row, with its numeric cells already read as `float`.  The
   * optional columns are `None` when the run did not map them; a mapped blank
   * cell reads as 0.  `x` and `y` are the location in the grid's coordinate
   * system.  `complete` says every required field is non-blank.
   */
  datatype Facility = Facility(
    fltyId: string, occupancy: string, cost: real, area: real, numStories: real,
    foundationType: real, firstFloorHt: real,
    contentCost: Option<real>, inventoryCost: Option<real>,
    bldgDdfId: Option<real>, contDdfId: Option<real>, invDdfId: Option<real>,
    x: real, y: real, complete: bool)

  /** The grid's origin and pixel size: geotransform entries 0, 3, 1 and the negated entry 5. */
  datatype Frame = Frame(xOrigin: real, yOrigin: real, pixelWidth: real, pixelHeight: real)

  predicate ValidFrame(fr: Frame) {
    fr.pixelWidth != 0.0 && fr.pixelHeight != 0.0
  }

  /** A frame with non-zero pixel sizes, as every georeferenced raster has. */
  type GeoFrame = fr: Frame | ValidFrame(fr) witness Frame(0.0, 0.0, 1.0, 1.0)

  /** A raster whose rows all have the stated width. */
  type DepthGrid = g: Grid | WellFormed(g) witness Grid([], 0, None)

  /**
   * One damage component of an exposed record: curve id, damage ratio, and the
   * cost basis the ratio applies to.
   */
  datatype Damage = Damage(id: DdfId, ratio: real, basis: real) {
    /** The percentage written to the `...DmgPct` column. */
    function Pct(): real {
      ratio * 100.0
    }

    /** The loss in dollars written to the `...LossUSD` column. */
    function Loss(): real {
      ratio * basis
    }
  }

  /** What every processed (complete) record carries: sampled depth, SOID and cost bases. */
  datatype Assessment = Assessment(rasterDepth: real, soid: string, contentCost: real, inventoryCost: real)

  datatype Outcome =
    | Incomplete                      // a required field is blank; only the depth column is set
    | NotExposed(a: Assessment)       // the raster shows no water: `flExp` 0, zero losses
    | UnmatchedSoid(a: Assessment)    // no building curve for the SOID: `BDDF_ID` is `Unmatched`
    | Exposed(a: Assessment, building: Damage, content: Damage, inventory: Damage,
              debris: Option<DebrisTons>, restoration: (int, int))

  /** One output record: the facility, `Depth_in_Struc`, and the rest. */
  datatype LossRecord = LossRecord(facility: Facility, depthInStruc: real, outcome: Outcome)

  /** The `Depth_in_Struc` of a record with a blank required field. */
  const IncompleteDepth: real := -99999.0

  /**
   * The `flExp` column: 1 when the raster shows water (set before the SOID is
   * looked up, so unmatched records carry it too), 0 when not, absent for
   * skipped records.
   */
  function FlExp(rec: LossRecord): (e: Option<int>)
    ensures e.None? <==> rec.outcome.Incomplete?
    ensures e == Some(0) <==> rec.outcome.NotExposed?
    ensures e == Some(1) <==> rec.outcome.Exposed? || rec.outcome.UnmatchedSoid?
  {
    match rec.outcome
    case Incomplete => None
    case NotExposed(_) => Some(0)
    case _ => Some(1)
  }

  lemma DivBounds(lo: real, hi: real, v: real, p: real)
    requires p > 0.0 && lo * p <= v < hi * p
    ensures lo <= v / p < hi
  {
    assert v / p - lo == (v - lo * p) / p;
    assert hi - v / p == (hi * p - v) / p;
  }

  /** A value in the `k`-th step of size `p` from `o` truncates to `k`. */
  lemma StepIndex(o: real, p: real, v: real, k: nat)
    requires p > 0.0
    requires o + k as real * p <= v < o + (k + 1) as real * p
    ensures Trunc((v - o) / p) == k
  {
    DivBounds(k as real, (k + 1) as real, v - o, p);
  }

  /** The pixel (row, column) holding a point: `int` of the offset over the pixel size. */
  function PixelOf(fr: Frame, x: real, y: real): (rc: (int, int))
    requires ValidFrame(fr)
  {
    (Trunc((fr.yOrigin - y) / fr.pixelHeight), Trunc((x - fr.xOrigin) / fr.pixelWidth))
  }

  /** A point inside pixel (r, c) of a north-up grid maps to that pixel. */
  lemma PointInPixel(fr: Frame, x: real, y: real, r: nat, c: nat)
    requires fr.pixelWidth > 0.0 && fr.pixelHeight > 0.0
    requires fr.xOrigin + c as real * fr.pixelWidth <= x < fr.xOrigin + (c + 1) as real * fr.pixelWidth
    requires fr.yOrigin - (r + 1) as real * fr.pixelHeight < y <= fr.yOrigin - r as real * fr.pixelHeight
    ensures PixelOf(fr, x, y) == (r, c)
  {
    StepIndex(fr.xOrigin, fr.pixelWidth, x, c);
    StepIndex(-fr.yOrigin, fr.pixelHeight, -y, r);
    assert -y - -fr.yOrigin == fr.yOrigin - y;
  }

  /** The building default table for the run's flood-type code. */
  function BuildingDefaults(t: LookupTables, code: string, oc: string): seq<DdfRow> {
    match DefaultTableFor(code, oc)
    case Riverine => t.bldgRiverine
    case CoastalA => t.bldgCoastalA
    case CoastalV => t.bldgCoastalV
  }

  /** The content default table for the run's flood-type code. */
  function ContentDefaults(t: LookupTables, code: string, oc: string): seq<DdfRow> {
    match DefaultTableFor(code, oc)
    case Riverine => t.contRiverine
    case CoastalA => t.contCoastalA
    case CoastalV => t.contCoastalV
  }

  /**
   * The inventory cost basis, or the value left in the variable by the previous
   * record when the economic table has no row for an allow-listed occupancy.
   * With no previous value the variable is unbound and the run aborts.
   */
  function InventoryCostOrStale(f: Facility, econ: seq<EconRow>, prev: Option<real>): (r: Result<real, RunError>)
    ensures InventoryCost(f.occupancy, f.area, f.inventoryCost, econ).Some? ==>
              r == Ok(InventoryCost(f.occupancy, f.area, f.inventoryCost, econ).value)
    ensures r.Err? <==> InventoryCost(f.occupancy, f.area, f.inventoryCost, econ).None? && prev.None?
    ensures r.Err? ==> r.error == EconMiss(f.occupancy)
    ensures InventoryCost(f.occupancy, f.area, f.inventoryCost, econ).None? && prev.Some? ==> r == Ok(prev.value)
  {
    match InventoryCost(f.occupancy, f.area, f.inventoryCost, econ)
    case Some(c) => Ok(c)
    case None => if prev.Some? then Ok(prev.value) else Err(EconMiss(f.occupancy))
  }

  /** A resolved curve lacks one of the two columns the depth needs. */
  predicate CurveFails(res: Resolution, d: real) {
    res.Resolved? && DamageRatio(res.row, d).Err?
  }

  /**
   * One damage component at clamped depth `d` over cost basis `basis`.  A
   * resolved curve gives the interpolated ratio and ratio times basis; a curve
   * missing its column aborts the run.  No curve at all gives a zero component:
   * `Zero` for an occupancy without a default inventory curve, and for a SOID
   * missing from a default table the id `carried`, which is what `ddf_id`
   * still holds from the component before.
   */
  function ComponentDamage(res: Resolution, d: real, basis: real, carried: DdfId): (r: Result<Damage, RunError>)
    ensures r.Err? <==> CurveFails(res, d)
    ensures r.Ok? ==> r.value.basis == basis
    ensures r.Ok? && res.Resolved? ==> r.value.id == res.id && r.value.ratio == DamageRatio(res.row, d).value
    ensures res.NoMatch? ==> r == Ok(Damage(carried, 0.0, basis))
    ensures res.NoDefault? ==> r == Ok(Damage(Zero, 0.0, basis))
    ensures r.Err? ==> r.error.MissingColumn?
  {
    match res
    case NoMatch => Ok(Damage(carried, 0.0, basis))
    case NoDefault => Ok(Damage(Zero, 0.0, basis))
    case Resolved(row, id) =>
      match DamageRatio(row, d)
      case Err(e) => Err(e)
      case Ok(ratio) => Ok(Damage(id, ratio, basis))
  }

  /**
   * The content or inventory component as the source writes it: a default-table
   * miss puts the sentinel -9999 where the output column's name was, so the row
   * gains a column the CSV writer does not know and the writer aborts the run.
   */
  function ComponentDamageAsWritten(res: Resolution, d: real, basis: real, carried: DdfId): (r: Result<Damage, RunError>)
    ensures res.NoMatch? ==> r == Err(ExtraColumn)
    ensures !res.NoMatch? ==> r == ComponentDamage(res, d, basis, carried)
  {
    if res.NoMatch? then Err(ExtraColumn) else ComponentDamage(res, d, basis, carried)
  }

  /** The two readings of a default-table miss differ: the source aborts, the corrected model records no damage. */
  lemma DefaultMissFinding(user: Option<real>, full: seq<DdfRow>, defaults: seq<DdfRow>, soid: string, d: real, basis: real,
                            carried: DdfId)
    requires FullMatch(user, full).None?
    requires forall j :: 0 <= j < |defaults| ==> defaults[j].soid != soid
    ensures ComponentDamageAsWritten(Resolve(user, full, defaults, soid), d, basis, carried) == Err(ExtraColumn)
    ensures ComponentDamage(Resolve(user, full, defaults, soid), d, basis, carried) == Ok(Damage(carried, 0.0, basis))
    ensures ComponentDamage(Resolve(user, full, defaults, soid), d, basis, carried).value.Loss() == 0.0
  {
    assert DefaultMatch(defaults, soid).None?;
  }

  lemma UnitProduct(f: real, b: real)
    requires 0.0 <= f <= 1.0 && 0.0 <= b
    ensures 0.0 <= f * b <= b
  {
    MulNonNegative(f, b);
    MulNonNegative(1.0 - f, b);
    ComplementProduct(f, b);
  }

  /** With percentages between 0 and 100 and a non-negative basis, the loss is between 0 and the basis. */
  lemma LossWithinBasis(res: Resolution, d: real, basis: real, carried: DdfId)
    requires basis >= 0.0
    requires res.Resolved? && LowerKey(d) in res.row.pct && UpperKey(d) in res.row.pct
    requires 0.0 <= res.row.pct[LowerKey(d)] <= 100.0 && 0.0 <= res.row.pct[UpperKey(d)] <= 100.0
    ensures ComponentDamage(res, d, basis, carried).Ok?
    ensures 0.0 <= ComponentDamage(res, d, basis, carried).value.ratio <= 1.0
    ensures 0.0 <= ComponentDamage(res, d, basis, carried).value.Loss() <= basis
  {
    var ratio := DamageRatio(res.row, d).value;
    assert ratio == Interpolate(res.row.pct[LowerKey(d)], res.row.pct[UpperKey(d)], d);
    assert 0.0 <= ratio <= 1.0;
    var dmg := ComponentDamage(res, d, basis, carried).value;
    assert dmg == Damage(res.id, ratio, basis);
    UnitProduct(ratio, basis);
    assert dmg.Loss() == ratio * basis;
  }

  /** The building curve of a facility: the user's id in the full library, else the SOID's default row. */
  function BuildingResolution(f: Facility, a: Assessment, code: string, t: LookupTables): Resolution {
    Resolve(f.bldgDdfId, t.bldgFull, BuildingDefaults(t, code, f.occupancy), a.soid)
  }

  /** The content curve of a facility, chosen the same way from the content tables. */
  function ContentResolution(f: Facility, a: Assessment, code: string, t: LookupTables): Resolution {
    Resolve(f.contDdfId, t.contFull, ContentDefaults(t, code, f.occupancy), a.soid)
  }

  /** The SOID the code writes over its own when a default lookup misses. */
  const MissSoid := "XXXX"

  /**
   * The SOID the inventory lookup sees: a content default-table miss has
   * already replaced the facility's SOID by `MissSoid`.
   */
  function InventorySoid(f: Facility, a: Assessment, code: string, t: LookupTables): string {
    if ContentResolution(f, a, code, t).NoMatch? then MissSoid else a.soid
  }

  /** The inventory curve of a facility, from the inventory tables. */
  function InventoryResolution(f: Facility, a: Assessment, code: string, t: LookupTables): Resolution {
    ResolveInventory(f.invDdfId, t.invFull, t.invRiverine, InventorySoid(f, a, code, t), f.occupancy)
  }

  /** The three damage components of an exposed facility whose building curve resolved. */
  function Components(f: Facility, a: Assessment, bres: Resolution, d: real, code: string, t: LookupTables)
    : (r: Result<(Damage, Damage, Damage), RunError>)
    requires bres.Resolved?
    ensures r.Ok? ==>
              r.value.0.id == bres.id &&
              r.value.0.basis == Trunc(f.cost) as real &&
              r.value.1.basis == a.contentCost &&
              r.value.2.basis == a.inventoryCost
    ensures r.Ok? <==>
              && !CurveFails(bres, d)
              && !CurveFails(ContentResolution(f, a, code, t), d)
              && !CurveFails(InventoryResolution(f, a, code, t), d)
    ensures r.Ok? ==>
              && r.value.0 == ComponentDamage(bres, d, Trunc(f.cost) as real, bres.id).value
              && r.value.1 == ComponentDamage(ContentResolution(f, a, code, t), d, a.contentCost, bres.id).value
              && r.value.2 == ComponentDamage(InventoryResolution(f, a, code, t), d, a.inventoryCost, r.value.1.id).value
    ensures r.Err? ==> r.error.MissingColumn?
  {
    var building :- ComponentDamage(bres, d, Trunc(f.cost) as real, bres.id);
    var content :- ComponentDamage(ContentResolution(f, a, code, t), d, a.contentCost, bres.id);
    var inventory :- ComponentDamage(InventoryResolution(f, a, code, t), d, a.inventoryCost, content.id);
    Ok((building, content, inventory))
  }

  /**
   * After a content default-table miss, the inventory default lookup searches
   * for `MissSoid`, so it finds no curve for the facility's own SOID: without a
   * full-library inventory id, the inventory damage ratio is 0.
   */
  lemma ContentMissHidesInventory(f: Facility, a: Assessment, code: string, t: LookupTables, d: real, carried: DdfId)
    requires ContentResolution(f, a, code, t).NoMatch?
    requires FullMatch(f.invDdfId, t.invFull).None?
    requires forall j :: 0 <= j < |t.invRiverine| ==> t.invRiverine[j].soid != MissSoid
    ensures InventorySoid(f, a, code, t) == MissSoid
    ensures !InventoryResolution(f, a, code, t).Resolved?
    ensures ComponentDamage(InventoryResolution(f, a, code, t), d, a.inventoryCost, carried).Ok?
    ensures ComponentDamage(InventoryResolution(f, a, code, t), d, a.inventoryCost, carried).value.ratio == 0.0
  {
    assert DefaultMatch(t.invRiverine, MissSoid).None?;
  }

  /** Debris tonnage and restoration days at clamped depth `d`. */
  function DebrisAndRestoration(f: Facility, d: real, t: LookupTables)
    : (r: Result<(Option<DebrisTons>, (int, int)), RunError>)
    ensures r.Ok? ==> (r.value.0.Some? <==> d > 0.0)
    ensures d <= 0.0 ==> r == Ok((None, (0, 0)))
    ensures r.Ok? <==> Debris(f.occupancy, f.foundationType, f.area, d, t.debris).Ok? && Restoration(f.occupancy, d, t.restoration).Ok?
    ensures r.Ok? ==>
              r.value == (Debris(f.occupancy, f.foundationType, f.area, d, t.debris).value, Restoration(f.occupancy, d, t.restoration).value)
    ensures Debris(f.occupancy, f.foundationType, f.area, d, t.debris).Err? ==>
              r == Err(Debris(f.occupancy, f.foundationType, f.area, d, t.debris).error)
    ensures r.Err? ==> r.error.DebrisMiss? || r.error.RestorationMiss?
  {
    var debris :- Debris(f.occupancy, f.foundationType, f.area, d, t.debris);
    var restoration :- Restoration(f.occupancy, d, t.restoration);
    Ok((debris, restoration))
  }

  /**
   * The outcome of a facility the raster shows under water: `UnmatchedSoid`
   * when no building curve resolves, otherwise its losses.
   */
  function ExposedOutcome(f: Facility, a: Assessment, d: real, code: string, t: LookupTables): (r: Result<Outcome, RunError>)
    ensures r.Ok? ==> (r.value.Exposed? || r.value.UnmatchedSoid?) && r.value.a == a
    ensures r.Ok? && r.value.UnmatchedSoid? <==> BuildingResolution(f, a, code, t).NoMatch?
    ensures r.Ok? && r.value.Exposed? ==>
              r.value.building.id != Unmatched &&
              r.value.building.basis == Trunc(f.cost) as real &&
              r.value.content.basis == a.contentCost &&
              r.value.inventory.basis == a.inventoryCost
    ensures r.Ok? && r.value.Exposed? ==>
              (r.value.debris.Some? <==> d > 0.0) && (d <= 0.0 ==> r.value.restoration == (0, 0))
    ensures r.Ok? && r.value.Exposed? ==>
              && BuildingResolution(f, a, code, t).Resolved?
              && Components(f, a, BuildingResolution(f, a, code, t), d, code, t)
                 == Ok((r.value.building, r.value.content, r.value.inventory))
              && DebrisAndRestoration(f, d, t) == Ok((r.value.debris, r.value.restoration))
    ensures BuildingResolution(f, a, code, t).Resolved? ==>
              (r.Ok? <==> Components(f, a, BuildingResolution(f, a, code, t), d, code, t).Ok? && DebrisAndRestoration(f, d, t).Ok?)
    ensures r.Err? ==> r.error.MissingColumn? || r.error.DebrisMiss? || r.error.RestorationMiss?
  {
    var bres := BuildingResolution(f, a, code, t);
    if bres.NoMatch? then Ok(UnmatchedSoid(a))
    else
      var losses :- Components(f, a, bres, d, code, t);
      var rest :- DebrisAndRestoration(f, d, t);
      Ok(Exposed(a, losses.0, losses.1, losses.2, rest.0, rest.1))
  }

  /** The depth the raster shows at the facility's pixel. */
  function RasterAt(f: Facility, fr: GeoFrame, g: DepthGrid): real {
    Sample(g, PixelOf(fr, f.x, f.y).0, PixelOf(fr, f.x, f.y).1)
  }

  /** The assessment of a complete facility whose inventory cost basis is `icost`. */
  function AssessmentOf(f: Facility, fr: GeoFrame, g: DepthGrid, icost: real): Assessment {
    Assessment(RasterAt(f, fr, g), Soid(f.occupancy, f.numStories, f.foundationType),
               ContentCost(f.occupancy, f.cost, f.contentCost), icost)
  }

  /**
   * Process one complete record, one whose required fields are all present.
   * `prev` is the inventory cost left by the previous record; the result pairs
   * the output record with the inventory cost this record leaves behind.
   */
  function ProcessComplete(f: Facility, code: string, fr: GeoFrame, g: DepthGrid, t: LookupTables, prev: Option<real>)
    : (r: Result<(LossRecord, Option<real>), RunError>)
    requires f.complete
    ensures r.Ok? ==>
              var raster := RasterAt(f, fr, g);
              var rec := r.value.0;
              && rec.facility == f
              && rec.depthInStruc == raster - f.firstFloorHt
              && !rec.outcome.Incomplete?
              && rec.outcome.a.rasterDepth == raster
              && rec.outcome.a.soid == Soid(f.occupancy, f.numStories, f.foundationType)
              && rec.outcome.a.contentCost == ContentCost(f.occupancy, f.cost, f.contentCost)
              && InventoryCostOrStale(f, t.econ, prev) == Ok(rec.outcome.a.inventoryCost)
              && r.value.1 == Some(rec.outcome.a.inventoryCost)
              && (rec.outcome.NotExposed? <==> raster <= 0.0)
              && (raster > 0.0 ==> ExposedOutcome(f, rec.outcome.a, Clamp(rec.depthInStruc), code, t) == Ok(rec.outcome))
    ensures InventoryCostOrStale(f, t.econ, prev).Err? ==> r == Err(EconMiss(f.occupancy))
    ensures InventoryCostOrStale(f, t.econ, prev).Ok? ==>
              var a := AssessmentOf(f, fr, g, InventoryCostOrStale(f, t.econ, prev).value);
              (r.Err? <==> RasterAt(f, fr, g) > 0.0 && ExposedOutcome(f, a, Clamp(RasterAt(f, fr, g) - f.firstFloorHt), code, t).Err?)
    ensures r.Err? && r.error.EconMiss? ==> prev.None?
    ensures r.Err? ==> r.error != ExtraColumn
  {
    match InventoryCostOrStale(f, t.econ, prev)
    case Err(e) => Err(e)
    case Ok(icost) =>
      match AssessedRecord(f, AssessmentOf(f, fr, g, icost), RasterAt(f, fr, g) - f.firstFloorHt, code, t)
      case Err(e) => Err(e)
      case Ok(rec) => Ok((rec, Some(icost)))
  }

  /**
   * The output record of an assessed facility whose depth in structure is
   * `depth`: dry when the raster shows no water, otherwise the exposed outcome
   * at the clamped depth.
   */
  function AssessedRecord(f: Facility, a: Assessment, depth: real, code: string, t: LookupTables): (r: Result<LossRecord, RunError>)
    ensures r.Ok? ==>
              && r.value.facility == f
              && r.value.depthInStruc == depth
              && !r.value.outcome.Incomplete?
              && r.value.outcome.a == a
              && (r.value.outcome.NotExposed? <==> a.rasterDepth <= 0.0)
              && (a.rasterDepth > 0.0 ==> ExposedOutcome(f, a, Clamp(depth), code, t) == Ok(r.value.outcome))
    ensures r.Err? <==> a.rasterDepth > 0.0 && ExposedOutcome(f, a, Clamp(depth), code, t).Err?
    ensures r.Err? ==> r.error.MissingColumn? || r.error.DebrisMiss? || r.error.RestorationMiss?
  {
    if a.rasterDepth <= 0.0 then Ok(LossRecord(f, depth, NotExposed(a)))
    else
      var outcome := ExposedOutcome(f, a, Clamp(depth), code, t);
      if outcome.Err? then Err(outcome.error)
      else Ok(LossRecord(f, depth, outcome.value))
  }

  /**
   * Process one record.  `first` says it is the first row of the file, and
   * `prev` is the inventory cost left by the previous record.  The result pairs
   * the output record with the inventory cost this record leaves behind.
   */
  function ProcessRecord(f: Facility, first: bool, code: string, fr: GeoFrame, g: DepthGrid, t: LookupTables, prev: Option<real>)
    : (r: Result<(LossRecord, Option<real>), RunError>)
    ensures r.Ok? ==> r.value.0.facility == f
    ensures !f.complete ==> (r.Err? <==> first)
    ensures !f.complete && first ==> r == Err(IncompleteFirstRecord)
    ensures !f.complete && r.Ok? ==> r.value == (LossRecord(f, IncompleteDepth, Incomplete), prev)
    ensures f.complete ==> r == ProcessComplete(f, code, fr, g, t, prev)
    ensures r.Err? && r.error == ExtraColumn ==> false
  {
    if !f.complete then
      if first then Err(IncompleteFirstRecord)
      else Ok((LossRecord(f, IncompleteDepth, Incomplete), prev))
    else ProcessComplete(f, code, fr, g, t, prev)
  }

  /**
   * The losses of an exposed record: building damage is the resolved building
   * curve's ratio at the clamped depth over the truncated building cost (so its
   * loss is their product), and
   * the content, inventory, debris and restoration values are those of their
   * own curves and tables at that depth.  A content or inventory curve that
   * does not match records the id of the component before it.
   */
  lemma ExposedRecordLosses(f: Facility, first: bool, code: string, fr: GeoFrame, g: DepthGrid, t: LookupTables,
                            prev: Option<real>, rec: LossRecord, next: Option<real>)
    requires ProcessRecord(f, first, code, fr, g, t, prev) == Ok((rec, next))
    requires rec.outcome.Exposed?
    ensures f.complete && RasterAt(f, fr, g) > 0.0
    ensures BuildingResolution(f, rec.outcome.a, code, t).Resolved?
    ensures rec.outcome.building ==
              Damage(BuildingResolution(f, rec.outcome.a, code, t).id,
                     DamageRatio(BuildingResolution(f, rec.outcome.a, code, t).row, Clamp(rec.depthInStruc)).value,
                     Trunc(f.cost) as real)
    ensures rec.outcome.content ==
              ComponentDamage(ContentResolution(f, rec.outcome.a, code, t), Clamp(rec.depthInStruc), rec.outcome.a.contentCost,
                              rec.outcome.building.id).value
    ensures rec.outcome.inventory ==
              ComponentDamage(InventoryResolution(f, rec.outcome.a, code, t), Clamp(rec.depthInStruc), rec.outcome.a.inventoryCost,
                              rec.outcome.content.id).value
    ensures rec.outcome.debris == Debris(f.occupancy, f.foundationType, f.area, Clamp(rec.depthInStruc), t.debris).value
    ensures rec.outcome.restoration == Restoration(f.occupancy, Clamp(rec.depthInStruc), t.restoration).value
  {
    assert f.complete && RasterAt(f, fr, g) > 0.0;
    assert ExposedOutcome(f, rec.outcome.a, Clamp(rec.depthInStruc), code, t) == Ok(rec.outcome);
    ExposedParts(f, rec.outcome, Clamp(rec.depthInStruc), code, t);
  }

  /** The parts of an exposed outcome, read off its components and secondary results. */
  lemma ExposedParts(f: Facility, o: Outcome, d: real, code: string, t: LookupTables)
    requires o.Exposed? && ExposedOutcome(f, o.a, d, code, t) == Ok(o)
    ensures BuildingResolution(f, o.a, code, t).Resolved?
    ensures o.building ==
              Damage(BuildingResolution(f, o.a, code, t).id, DamageRatio(BuildingResolution(f, o.a, code, t).row, d).value, Trunc(f.cost) as real)
    ensures o.content == ComponentDamage(ContentResolution(f, o.a, code, t), d, o.a.contentCost, o.building.id).value
    ensures o.inventory == ComponentDamage(InventoryResolution(f, o.a, code, t), d, o.a.inventoryCost, o.content.id).value
    ensures o.debris == Debris(f.occupancy, f.foundationType, f.area, d, t.debris).value
    ensures o.restoration == Restoration(f.occupancy, d, t.restoration).value
  {
    var bres := BuildingResolution(f, o.a, code, t);
    assert Components(f, o.a, bres, d, code, t) == Ok((o.building, o.content, o.inventory));
    assert DebrisAndRestoration(f, d, t) == Ok((o.debris, o.restoration));
    assert o.building == ComponentDamage(bres, d, Trunc(f.cost) as real, bres.id).value;
  }

  /** The per-record step of the run: row 1 is the one with index 0. */
  function RecordStep(code: string, fr: GeoFrame, g: DepthGrid, t: LookupTables)
    : (Facility, nat, Option<real>) -> Result<(LossRecord, Option<real>), RunError>
  {
    (f: Facility, i: nat, prev: Option<real>) => ProcessRecord(f, i == 0, code, fr, g, t, prev)
  }

  /** A one-storey RES1 house on a basement foundation (type 4), worth 100000, first floor 1 foot up. */
  function ScenarioHouse(): Facility {
    Facility("F1", "RES1", 100000.0, 1500.0, 1.0, 4.0, 1.0, None, None, None, None, None, 0.5, 0.5, true)
  }

  /** A one-cell grid holding 3 feet of water, whose cell spans (0, 0)-(1, 1). */
  function ScenarioFrame(): GeoFrame {
    Frame(0.0, 1.0, 1.0, 1.0)
  }

  function ScenarioGrid(): DepthGrid {
    Grid([[3.0]], 1, None)
  }

  /** Tables holding one row for each lookup the house needs. */
  function ScenarioTables(): LookupTables {
    LookupTables(
      [DdfRow("105", "R11B", "RES1", map["p2" := 20.0])], [], [], [],
      [DdfRow("29", "R11B", "RES1", map["p2" := 30.0])], [], [], [],
      [], [], [],
      [DebrisRow("RES1BSG0", 10.0, 20.0, 5.0)],
      [RestorationRow("RES14", 30, 60)])
  }

  /** The house samples 3 feet, gets SOID `R11B`, a content cost of 50000 and no inventory cost. */
  lemma ScenarioAssessment()
    ensures Sample(ScenarioGrid(), PixelOf(ScenarioFrame(), 0.5, 0.5).0, PixelOf(ScenarioFrame(), 0.5, 0.5).1) == 3.0
    ensures Soid("RES1", 1.0, 4.0) == "R11B"
    ensures ContentCost("RES1", 100000.0, None) == 50000.0
    ensures InventoryCostOrStale(ScenarioHouse(), [], None) == Ok(0.0)
  {
    PointInPixel(ScenarioFrame(), 0.5, 0.5, 0, 0);
    OneStoryBasementSoid();
    Res1ContentCostExample();
    assert "RES1" !in InventoryList;
  }

  /** At 2 feet the house takes 20% building and 30% content damage and no inventory damage. */
  lemma ScenarioDamage()
    ensures
      var t := ScenarioTables();
      var a := Assessment(3.0, "R11B", 50000.0, 0.0);
      Components(ScenarioHouse(), a, Resolved(t.bldgRiverine[0], TableId("105")), 2.0, "", t) ==
        Ok((Damage(TableId("105"), 0.2, 100000.0), Damage(TableId("29"), 0.3, 50000.0), Damage(Zero, 0.0, 0.0)))
  {
    var t := ScenarioTables();
    assert LowerKey(2.0) == "p2" && UpperKey(2.0) == "p2" by {
      assert Floor(2.0) == 2 && Ceil(2.0) == 2;
      OneDigit(2);
    }
    assert DamageRatio(t.bldgRiverine[0], 2.0) == Ok(0.2);
    assert DamageRatio(t.contRiverine[0], 2.0) == Ok(0.3);
    assert DefaultTableFor("", "RES1") == Riverine;
    assert DefaultMatch(t.contRiverine, "R11B") == Some(0);
    assert Resolve(None, [], t.contRiverine, "R11B") == Resolved(t.contRiverine[0], TableId("29"));
    assert "RES1" !in InventoryList;
    assert ResolveInventory(None, [], [], "R11B", "RES1") == NoDefault;
    assert Trunc(100000.0) == 100000;
  }

  /** At 2 feet the house's debris comes from row `RES1BSG0` and its restoration time from `RES14`. */
  lemma ScenarioDebrisAndRestoration()
    ensures DebrisAndRestoration(ScenarioHouse(), 2.0, ScenarioTables()) ==
              Ok((Some(DebrisTons("RES1BSG0", 15.0, 30.0, 7.5, 52.5)), (30, 60)))
  {
    var t := ScenarioTables();
    assert DebrisKey("RES1", 4.0, 2.0) == "RES1BSG0";
    assert Debris("RES1", 4.0, 1500.0, 2.0, t.debris) == Ok(Some(DebrisTons("RES1BSG0", 15.0, 30.0, 7.5, 52.5)));
    assert RestorationKey("RES1", 2.0) == "RES14";
  }

  /**
   * The house under 3 feet of water: 2 feet in the structure, a building loss
   * of 20000, a content loss of 15000, no inventory loss, debris and restoration
   * from the matching rows.
   */
  lemma Res1BasementScenario()
    ensures
      var a := Assessment(3.0, "R11B", 50000.0, 0.0);
      var building := Damage(TableId("105"), 0.2, 100000.0);
      var content := Damage(TableId("29"), 0.3, 50000.0);
      var tons := DebrisTons("RES1BSG0", 15.0, 30.0, 7.5, 52.5);
      && ProcessRecord(ScenarioHouse(), true, "", ScenarioFrame(), ScenarioGrid(), ScenarioTables(), None) ==
           Ok((LossRecord(ScenarioHouse(), 2.0, Exposed(a, building, content, Damage(Zero, 0.0, 0.0), Some(tons), (30, 60))),
               Some(0.0)))
      && building.Loss() == 20000.0
      && content.Loss() == 15000.0
  {
    ScenarioAssessment();
    ScenarioExposed();
    assert Clamp(3.0 - 1.0) == 2.0;
  }

  /** The outcome of the house at a clamped depth of 2 feet. */
  lemma ScenarioExposed()
    ensures
      var a := Assessment(3.0, "R11B", 50000.0, 0.0);
      ExposedOutcome(ScenarioHouse(), a, 2.0, "", ScenarioTables()) ==
        Ok(Exposed(a, Damage(TableId("105"), 0.2, 100000.0), Damage(TableId("29"), 0.3, 50000.0),
                   Damage(Zero, 0.0, 0.0), Some(DebrisTons("RES1BSG0", 15.0, 30.0, 7.5, 52.5)), (30, 60)))
  {
    var t := ScenarioTables();
    ScenarioDamage();
    ScenarioDebrisAndRestoration();
    assert DefaultTableFor("", "RES1") == Riverine;
    assert DefaultMatch(t.bldgRiverine, "R11B") == Some(0);
    assert Resolve(None, [], t.bldgRiverine, "R11B") == Resolved(t.bldgRiverine[0], TableId("105"));
  }

  /** The records of a whole file in file order, before sorting; no inventory cost is bound at the start. */
  function RunRecords(fs: seq<Facility>, code: string, fr: GeoFrame, g: DepthGrid, t: LookupTables)
    : Result<(seq<LossRecord>, Option<real>), RunError>
  {
    Fold.FoldPrefix(fs, |fs|, RecordStep(code, fr, g, t), None)
  }

  predicate SameFacility(f: Facility, rec: LossRecord) {
    rec.facility == f
  }

  /** A completed run has one record per input row, in input order. */
  lemma RecordsFollowInput(fs: seq<Facility>, code: string, fr: GeoFrame, g: DepthGrid, t: LookupTables)
    requires RunRecords(fs, code, fr, g, t).Ok?
    ensures |RunRecords(fs, code, fr, g, t).value.0| == |fs|
    ensures forall i :: 0 <= i < |fs| ==> RunRecords(fs, code, fr, g, t).value.0[i].facility == fs[i]
  {
    var step := RecordStep(code, fr, g, t);
    forall x, i, s | step(x, i, s).Ok?
      ensures SameFacility(x, step(x, i, s).value.0)
    {
      assert step(x, i, s) == ProcessRecord(x, i == 0, code, fr, g, t, s);
    }
    Fold.FoldOutputs(fs, |fs|, step, None, SameFacility);
  }

  /** A record with a blank required field in row 1 aborts the run. */
  lemma IncompleteFirstRowAborts(fs: seq<Facility>, code: string, fr: GeoFrame, g: DepthGrid, t: LookupTables)
    requires |fs| > 0 && !fs[0].complete
    ensures RunRecords(fs, code, fr, g, t) == Err(IncompleteFirstRecord)
  {
    var step := RecordStep(code, fr, g, t);
    Fold.FoldStep(fs, 0, step, None, [], None);
    assert step(fs[0], 0, None) == ProcessRecord(fs[0], true, code, fr, g, t, None);
    Fold.ErrPersists(fs, 1, |fs|, step, None);
  }

  /** A blank required field after row 1 only marks its own record; the run goes on. */
  lemma IncompleteLaterRowIsSkipped(f: Facility, i: nat, code: string, fr: GeoFrame, g: DepthGrid, t: LookupTables, prev: Option<real>)
    requires i > 0 && !f.complete
    ensures RecordStep(code, fr, g, t)(f, i, prev) == Ok((LossRecord(f, IncompleteDepth, Incomplete), prev))
  {
    assert RecordStep(code, fr, g, t)(f, i, prev) == ProcessRecord(f, false, code, fr, g, t, prev);
  }

  /** The number of records whose outcome satisfies `p`. */
  function Count(rs: seq<LossRecord>, p: Outcome -> bool): (c: nat)
    ensures c <= |rs|
  {
    if |rs| == 0 then 0
    else Count(rs[..|rs| - 1], p) + (if p(rs[|rs| - 1].outcome) then 1 else 0)
  }

  lemma CountSnoc(rs: seq<LossRecord>, x: LossRecord, p: Outcome -> bool)
    ensures Count(rs + [x], p) == Count(rs, p) + (if p(x.outcome) then 1 else 0)
  {
    assert (rs + [x])[..|rs|] == rs;
  }

  predicate IsExposed(o: Outcome) {
    o.Exposed?
  }

  predicate IsUnmatched(o: Outcome) {
    o.UnmatchedSoid?
  }

  function DepthKey(rec: LossRecord): real {
    rec.depthInStruc
  }

  predicate AtLeast(a: real, b: real) {
    a >= b
  }

  lemma AtLeastIsTotal()
    ensures StableSort.TotalOrder(AtLeast)
  {
  }

  /**
   * The sorted result file: records by `Depth_in_Struc`, deepest first, with
   * records of equal depth in file order (Python's stable sort with
   * `reverse=True`).
   */
  function SortByDepth(rs: seq<LossRecord>): (r: seq<LossRecord>)
    ensures multiset(r) == multiset(rs)
    ensures forall i, j :: 0 <= i < j < |r| ==> r[i].depthInStruc >= r[j].depthInStruc
    ensures forall k :: StableSort.Keep(r, DepthKey, k) == StableSort.Keep(rs, DepthKey, k)
  {
    AtLeastIsTotal();
    var sorted := StableSort.SortBy(rs, DepthKey, AtLeast);
    assert forall i, j :: 0 <= i < j < |sorted| ==> AtLeast(DepthKey(sorted[i]), DepthKey(sorted[j]));
    sorted
  }

  /**
   * The result of one depth grid: the sorted records, the number of records
   * processed, the flooded count (`recCountNonZeroDepth`) and the unmatched
   * SOID count (`invalidSOID`).
   */
  datatype GridRun = GridRun(records: seq<LossRecord>, processed: nat, flooded: int, unmatched: nat)

  /**
   * The counter updates after one record: a dry record is counted down and
   * back up, an exposed one up, an unmatched one only as unmatched, and a
   * skipped one not at all.
   */
  method Tally(rec: LossRecord, flooded: int, unmatched: nat) returns (fl: int, un: nat)
    ensures fl == flooded + (if IsExposed(rec.outcome) then 1 else 0)
    ensures un == unmatched + (if IsUnmatched(rec.outcome) then 1 else 0)
  {
    fl, un := flooded, unmatched;
    match rec.outcome {
      case Incomplete =>
      case UnmatchedSoid(_) =>
        un := un + 1;
      case NotExposed(_) =>
        // the dry branch counts the record down (UDF.py line 567) and the
        // shared tail counts it back up (line 1048): the net change is zero
        fl := fl - 1;
        fl := fl + 1;
      case Exposed(_, _, _, _, _, _) =>
        fl := fl + 1;
    }
  }

  /**
   * The record loop of one grid with the step left abstract: the records of the
   * fold together with the flooded and unmatched counters, or the first error.
   */
  method RunSteps(fs: seq<Facility>, step: (Facility, nat, Option<real>) -> Result<(LossRecord, Option<real>), RunError>)
    returns (r: Result<(seq<LossRecord>, int, nat), RunError>)
    ensures r.Ok? <==> Fold.FoldPrefix(fs, |fs|, step, None).Ok?
    ensures r.Err? ==> r.error == Fold.FoldPrefix(fs, |fs|, step, None).error
    ensures r.Ok? ==>
              && r.value.0 == Fold.FoldPrefix(fs, |fs|, step, None).value.0
              && r.value.1 == Count(r.value.0, IsExposed)
              && r.value.2 == Count(r.value.0, IsUnmatched)
  {
    var recs: seq<LossRecord> := [];
    var inv: Option<real> := None;
    var flooded: int := 0;
    var unmatched: nat := 0;
    var i := 0;
    while i < |fs|
      invariant 0 <= i <= |fs|
      invariant Fold.FoldPrefix(fs, i, step, None) == Ok((recs, inv))
      invariant flooded == Count(recs, IsExposed)
      invariant unmatched == Count(recs, IsUnmatched)
    {
      var out := step(fs[i], i, inv);
      Fold.FoldStep(fs, i, step, None, recs, inv);
      if out.Err? {
        Fold.ErrPersists(fs, i + 1, |fs|, step, None);
        return Err(out.error);
      }
      var rec := out.value.0;
      flooded, unmatched := Tally(rec, flooded, unmatched);
      CountSnoc(recs, rec, IsExposed);
      CountSnoc(recs, rec, IsUnmatched);
      recs := recs + [rec];
      inv := out.value.1;
      i := i + 1;
    }
    r := Ok((recs, flooded, unmatched));
  }

  /**
   * The header is written together with row 1 only when row 1 reaches the end
   * of the record body; an unmatched SOID skips it.  The sort then reads the
   * output back with row 1's values as column names: with a further row, its
   * depth lookup fails and the run aborts; with none, the sorted file holds no
   * records.
   */
  predicate HeaderWritten(recs: seq<LossRecord>) {
    |recs| == 0 || !recs[0].outcome.UnmatchedSoid?
  }

  /** The depth-sorted records read back from the output file. */
  function SortedOutput(recs: seq<LossRecord>): (r: Result<seq<LossRecord>, RunError>)
    ensures r.Err? <==> !HeaderWritten(recs) && |recs| >= 2
    ensures r.Err? ==> r.error == HeaderlessSort
    ensures HeaderWritten(recs) ==> r == Ok(SortByDepth(recs))
    ensures !HeaderWritten(recs) && |recs| < 2 ==> r == Ok([])
  {
    if HeaderWritten(recs) then Ok(SortByDepth(recs))
    else if |recs| >= 2 then Err(HeaderlessSort)
    else Ok([])
  }

  /**
   * Run every facility against one grid, keeping the counters the way the
   * source does, then sort.  Any error aborts the whole run.
   */
  method RunGrid(fs: seq<Facility>, code: string, fr: GeoFrame, g: DepthGrid, t: LookupTables) returns (r: Result<GridRun, RunError>)
    ensures RunRecords(fs, code, fr, g, t).Err? ==> r == Err(RunRecords(fs, code, fr, g, t).error)
    ensures RunRecords(fs, code, fr, g, t).Ok? ==>
              var recs := RunRecords(fs, code, fr, g, t).value.0;
              (r.Ok? <==> SortedOutput(recs).Ok?) && (r.Err? ==> r.error == HeaderlessSort)
    ensures r.Ok? ==>
              var recs := RunRecords(fs, code, fr, g, t).value.0;
              && RunRecords(fs, code, fr, g, t).Ok?
              && r.value.records == SortedOutput(recs).value
              && r.value.processed == |fs|
              && r.value.flooded == Count(recs, IsExposed)
              && r.value.unmatched == Count(recs, IsUnmatched)
  {
    var run := RunSteps(fs, RecordStep(code, fr, g, t));
    if run.Err? {
      return Err(run.error);
    }
    var (recs, flooded, unmatched) := run.value;
    var sorted := SortedOutput(recs);
    if sorted.Err? {
      return Err(sorted.error);
    }
    r := Ok(GridRun(sorted.value, |fs|, flooded, unmatched));
  }
}

=== FILE: pytext.dfy ===
/**
 * The pieces of Python's built-in semantics that the flood-loss code leans on:
 * `str(int)`, `int(float)` (truncation toward zero), `math.floor`/`math.ceil`,
 * and string slicing with negative or out-of-range bounds.
 */
module PyText {

  /** The decimal digit character for `d`. */
  function DigitChar(d: nat): (c: char)
    requires d < 10
    ensures '0' <= c <= '9'
    ensures c as int - '0' as int == d
  {
    ('0' as int + d) as char
  }

  predicate IsDigit(c: char) {
    '0' <= c <= '9'
  }

  /** The decimal digits of a natural number, most significant first, no leading zeros. */
  function Digits(n: nat): (s: string)
    ensures 1 <= |s|
    ensures forall i :: 0 <= i < |s| ==> IsDigit(s[i])
    ensures n > 0 ==> s[0] != '0'
    decreases n
  {
    if n < 10 then [DigitChar(n)] else Digits(n / 10) + [DigitChar(n % 10)]
  }

  /** Reads a string of decimal digits back into the number it denotes. */
  function DigitsValue(s: string): nat
    requires forall i :: 0 <= i < |s| ==> IsDigit(s[i])
  {
    if |s| == 0 then 0
    else
      assert IsDigit(s[|s| - 1]);
      DigitsValue(s[..|s| - 1]) * 10 + (s[|s| - 1] as int - '0' as int)
  }

  lemma {:induction false} DigitsRoundTrip(n: nat)
    ensures DigitsValue(Digits(n)) == n
    decreases n
  {
    if n >= 10 {
      var s := Digits(n);
      assert s[..|s| - 1] == Digits(n / 10);
      DigitsRoundTrip(n / 10);
    }
  }

  /** Python's `str(n)` for an integer `n`. */
  function DecimalString(n: int): (s: string)
    ensures 1 <= |s|
    ensures n >= 0 <==> s[0] != '-'
  {
    if n < 0 then "-" + Digits(-n) else Digits(n)
  }

  /** `str(n)` of a one-digit number is that digit. */
  lemma OneDigit(n: nat)
    requires n < 10
    ensures DecimalString(n) == [DigitChar(n)]
  {
  }

  /** `str(n)` of a two-digit number is its tens digit followed by its units digit. */
  lemma TwoDigits(n: nat)
    requires 10 <= n < 100
    ensures DecimalString(n) == [DigitChar(n / 10), DigitChar(n % 10)]
  {
    assert Digits(n / 10) == [DigitChar(n / 10)];
  }

  /** Python's `int(s)` restricted to the strings `str` produces. */
  function ParseDecimal(s: string): int
    requires 1 <= |s|
    requires s[0] == '-' ==> forall i :: 1 <= i < |s| ==> IsDigit(s[i])
    requires s[0] != '-' ==> forall i :: 0 <= i < |s| ==> IsDigit(s[i])
  {
    if s[0] == '-' then -(DigitsValue(s[1..]) as int) else DigitsValue(s)
  }

  /** `int(str(n)) == n`: printing an integer loses nothing. */
  lemma {:induction false} DecimalRoundTrip(n: int)
    ensures ParseDecimal(DecimalString(n)) == n
  {
    if n < 0 {
      assert DecimalString(n)[1..] == Digits(-n);
      DigitsRoundTrip(-n);
    } else {
      DigitsRoundTrip(n);
    }
  }

  /** Distinct integers print as distinct strings. */
  lemma DecimalStringInjective(a: int, b: int)
    ensures DecimalString(a) == DecimalString(b) <==> a == b
  {
    if DecimalString(a) == DecimalString(b) {
      DecimalRoundTrip(a);
      DecimalRoundTrip(b);
    }
  }

  /** Python's `int(x)` for a float `x`: truncation toward zero. */
  function Trunc(x: real): (n: int)
    ensures x >= 0.0 ==> 0 <= n && n as real <= x < n as real + 1.0
    ensures x < 0.0 ==> n <= 0 && n as real - 1.0 < x <= n as real
  {
    if x >= 0.0 then x.Floor else -((-x).Floor)
  }

  /** `math.floor(x)`. */
  function Floor(x: real): (n: int)
    ensures n as real <= x < n as real + 1.0
  {
    x.Floor
  }

  /** `math.ceil(x)`. */
  function Ceil(x: real): (n: int)
    ensures n as real - 1.0 < x <= n as real
  {
    -((-x).Floor)
  }

  lemma FloorCeilAgree(x: real)
    ensures Floor(x) == Ceil(x) <==> x == Floor(x) as real
    ensures Floor(x) != Ceil(x) ==> Ceil(x) == Floor(x) + 1
  {
  }

  function Abs(n: int): nat {
    if n < 0 then -n else n
  }

  /** The index Python uses for a slice bound `k` on a sequence of length `len`. */
  function SliceBound(k: int, len: nat): (b: nat)
    ensures b <= len
    ensures 0 <= k <= len ==> b == k
    ensures -(len as int) <= k < 0 ==> b == len + k
    ensures k > len ==> b == len
    ensures k < -(len as int) ==> b == 0
  {
    if k < 0 then (if len + k < 0 then 0 else len + k)
    else if k > len then len else k
  }

  /** Python's `s[:k]`. */
  function Prefix(s: string, k: int): (r: string)
    ensures r == s[..SliceBound(k, |s|)]
  {
    s[..SliceBound(k, |s|)]
  }

  /** Python's `s[k:]`. */
  function Suffix(s: string, k: int): (r: string)
    ensures r == s[SliceBound(k, |s|)..]
  {
    s[SliceBound(k, |s|)..]
  }

  /** Python's `s[i]` for `-len(s) <= i < len(s)`: negative indices count from the end. */
  function PyIndex<T>(s: seq<T>, i: int): (x: T)
    requires -|s| <= i < |s|
    ensures 0 <= i ==> x == s[i]
    ensures i < 0 ==> x == s[|s| + i]
  {
    if i < 0 then s[|s| + i] else s[i]
  }

  /** Python's `a <= b` on strings: lexicographic by character code. */
  predicate StrLe(a: string, b: string)
    decreases |a|
  {
    if |a| == 0 then true
    else if |b| == 0 then false
    else if a[0] != b[0] then a[0] < b[0]
    else StrLe(a[1..], b[1..])
  }

  lemma {:induction false} StrLeAntisymmetric(a: string, b: string)
    requires StrLe(a, b) && StrLe(b, a)
    ensures a == b
    decreases |a|
  {
    if |a| > 0 && |b| > 0 {
      StrLeAntisymmetric(a[1..], b[1..]);
      assert a == [a[0]] + a[1..];
      assert b == [b[0]] + b[1..];
    }
  }

  lemma {:induction false} StrLeTransitive(a: string, b: string, c: string)
    requires StrLe(a, b) && StrLe(b, c)
    ensures StrLe(a, c)
    decreases |a|
  {
    if |a| > 0 && |b| > 0 && |c| > 0 && a[0] == b[0] && b[0] == c[0] {
      StrLeTransitive(a[1..], b[1..], c[1..]);
    }
  }

  lemma {:induction false} StrLeTotal(a: string, b: string)
    ensures StrLe(a, b) || StrLe(b, a)
    decreases |a|
  {
    if |a| > 0 && |b| > 0 && a[0] == b[0] {
      StrLeTotal(a[1..], b[1..]);
    }
  }

  lemma {:induction false} StrLeReflexive(a: string)
    ensures StrLe(a, a)
    decreases |a|
  {
    if |a| > 0 {
      StrLeReflexive(a[1..]);
    }
  }
}

=== FILE: raster.dfy ===
/**
 * The raster sample policy of the depth-grid join (hazpy/flood/modules/UDF.py,
 * lines 398-399).  Opening the raster, reprojecting the facility's coordinates
 * and turning them into pixel indices are GDAL work; the model starts from the
 * integer pixel indices.
 */
module Raster {
  import opened Wrappers
  import opened PyText

  /** A single-band raster: `data[row][col]`, `cols` columns, and an optional no-data sentinel. */
  datatype Grid = Grid(data: seq<seq<real>>, cols: nat, noData: Option<real>)

  /** Every raster row has `cols` cells, as in the array GDAL hands back. */
  predicate WellFormed(g: Grid) {
    forall r :: 0 <= r < |g.data| ==> |g.data[r]| == g.cols
  }

  function Rows(g: Grid): nat {
    |g.data|
  }

  predicate IsNoData(g: Grid, v: real) {
    g.noData.Some? && g.noData.value == v
  }

  /** The position Python's `s[i]` reads in a sequence of length `n`, for `-n <= i < n`. */
  function Wrap(i: int, n: nat): int {
    if i < 0 then n + i else i
  }

  /** Both indices pass the `abs(i) < abs(n)` range test of the source. */
  predicate InRange(g: Grid, row: int, col: int) {
    Abs(col) < g.cols && Abs(row) < Rows(g)
  }

  /**
   * The depth sampled at pixel (`row`, `col`): the cell value, or 0 when an
   * index fails the range test or the cell holds the no-data sentinel.  The
   * range test admits negative indices, which then count from the far edge as
   * Python indexing does.
   */
  function Sample(g: Grid, row: int, col: int): (v: real)
    requires WellFormed(g)
    ensures !InRange(g, row, col) ==> v == 0.0
    ensures InRange(g, row, col) ==>
              var cell := g.data[Wrap(row, Rows(g))][Wrap(col, g.cols)];
              v == if IsNoData(g, cell) then 0.0 else cell
    ensures InRange(g, row, col) && 0 <= row && 0 <= col && !IsNoData(g, g.data[row][col]) ==> v == g.data[row][col]
    ensures v != 0.0 ==> !IsNoData(g, v)
  {
    if InRange(g, row, col) then
      var cell := PyIndex(PyIndex(g.data, row), col);
      if !IsNoData(g, cell) then cell else 0.0
    else 0.0
  }

  /** A sampled value is either 0 or the value of some in-grid cell. */
  lemma SampleIsCellOrZero(g: Grid, row: int, col: int)
    requires WellFormed(g)
    ensures Sample(g, row, col) == 0.0 ||
            exists r, c :: 0 <= r < Rows(g) && 0 <= c < g.cols && Sample(g, row, col) == g.data[r][c]
  {
    if Sample(g, row, col) != 0.0 {
      assert Sample(g, row, col) == g.data[Wrap(row, Rows(g))][Wrap(col, g.cols)];
    }
  }
}

=== FILE: resolver.dfy ===
/**
 * Depth-damage-function resolution (hazpy/flood/modules/UDF.py, lines 612-703
 * for buildings, 742-829 for contents, 853-945 for inventory).  A user id that
 * appears in the full library wins; otherwise the facility's SOID is looked up
 * in the default table for the flood type.
 */
module Resolver {
  import opened Wrappers
  import opened PyText
  import opened Tables
  import opened Lookup
  import opened Occupancy

  /** The id recorded in a `BDDF_ID` / `CDDF_ID` / `IDDF_ID` output column. */
  datatype DdfId =
    | Zero                 // the literal 0 written when no curve applies
    | UserId(n: int)       // `int(BID)`: the user's id, truncated
    | TableId(id: string)  // the `DDF_ID` column of a default-table row
    | Unmatched            // no row found for the SOID

  /** The outcome of one resolution. */
  datatype Resolution =
    | Resolved(row: DdfRow, id: DdfId)
    | NoMatch      // neither the full library nor the default table has a row
    | NoDefault    // inventory only: the occupancy has no default inventory curve

  /** Which default building/content table applies. */
  datatype DefaultTable = Riverine | CoastalA | CoastalV

  /**
   * The default table for a run-wide flood-type code and an occupancy class:
   * coastal tables only for `RES` classes, `CAE` for coastal A, `V` or `VE` for
   * coastal V.  An empty code means no flood-type column was supplied.
   */
  function DefaultTableFor(floodCode: string, oc: string): (t: DefaultTable)
    ensures t == CoastalA <==> floodCode == "CAE" && Prefix(oc, 3) == "RES"
    ensures t == CoastalV <==> (floodCode == "V" || floodCode == "VE") && Prefix(oc, 3) == "RES"
    ensures Prefix(oc, 3) != "RES" ==> t == Riverine
  {
    var supplied := floodCode != "";
    if supplied && Prefix(oc, 3) == "RES" then
      (if floodCode == "CAE" then CoastalA
       else if floodCode == "VE" || floodCode == "V" then CoastalV
       else Riverine)
    else Riverine
  }

  /** The string the full-library membership test compares against: `str(int(BID))`. */
  function UserKey(user: real): string {
    DecimalString(Trunc(user))
  }

  /** The first full-library row whose id column equals `str(int(BID))`, if the user mapped an id. */
  function FullMatch(user: Option<real>, full: seq<DdfRow>): (r: Option<nat>)
    ensures user.None? ==> r.None?
    ensures user.Some? ==>
              (r.None? <==> forall j :: 0 <= j < |full| ==> full[j].ddfId != UserKey(user.value))
    ensures r.Some? ==> r.value < |full| && full[r.value].ddfId == UserKey(user.value)
    ensures r.Some? ==> forall j :: 0 <= j < r.value ==> full[j].ddfId != UserKey(user.value)
  {
    if user.None? then None
    else
      var key := UserKey(user.value);
      FindFirst(full, (row: DdfRow) => row.ddfId == key)
  }

  /** The first default-table row for the SOID, if any. */
  function DefaultMatch(defaults: seq<DdfRow>, soid: string): (r: Option<nat>)
    ensures r.None? <==> forall j :: 0 <= j < |defaults| ==> defaults[j].soid != soid
    ensures r.Some? ==> r.value < |defaults| && defaults[r.value].soid == soid
    ensures r.Some? ==> forall j :: 0 <= j < r.value ==> defaults[j].soid != soid
  {
    FindFirst(defaults, (row: DdfRow) => row.soid == soid)
  }

  /** The id recorded for a default-table hit: the table's own id, or the user's id when one was mapped. */
  function DefaultId(user: Option<real>, row: DdfRow): (id: DdfId)
    ensures user.None? ==> id == TableId(row.ddfId)
    ensures user.Some? ==> id == UserId(Trunc(user.value))
  {
    if user.None? then TableId(row.ddfId) else UserId(Trunc(user.value))
  }

  /**
   * Building and content resolution.  A user id found in the full library
   * selects its first row there and is recorded as given; otherwise the first
   * default row with the SOID is used; otherwise nothing matches.
   */
  function Resolve(user: Option<real>, full: seq<DdfRow>, defaults: seq<DdfRow>, soid: string): (r: Resolution)
    ensures !r.NoDefault?
    ensures FullMatch(user, full).Some? ==>
              r == Resolved(full[FullMatch(user, full).value], UserId(Trunc(user.value)))
    ensures FullMatch(user, full).None? && DefaultMatch(defaults, soid).Some? ==>
              r == Resolved(defaults[DefaultMatch(defaults, soid).value], DefaultId(user, defaults[DefaultMatch(defaults, soid).value]))
    ensures r.NoMatch? <==> FullMatch(user, full).None? && DefaultMatch(defaults, soid).None?
  {
    match FullMatch(user, full)
    case Some(i) => Resolved(full[i], UserId(Trunc(user.value)))
    case None =>
      match DefaultMatch(defaults, soid)
      case Some(j) => Resolved(defaults[j], DefaultId(user, defaults[j]))
      case None => NoMatch
  }

  /**
   * Inventory resolution: as `Resolve`, except that the default table (riverine
   * only) is consulted only for occupancy classes on the inventory allow-list.
   */
  function ResolveInventory(user: Option<real>, full: seq<DdfRow>, defaults: seq<DdfRow>, soid: string, oc: string)
    : (r: Resolution)
    ensures FullMatch(user, full).Some? ==> r == Resolve(user, full, defaults, soid)
    ensures FullMatch(user, full).None? && oc in InventoryList ==> r == Resolve(user, full, defaults, soid)
    ensures r.NoDefault? <==> FullMatch(user, full).None? && oc !in InventoryList
  {
    if FullMatch(user, full).Some? || oc in InventoryList then Resolve(user, full, defaults, soid)
    else NoDefault
  }

  /** A user id present in the full library is used even when a default row exists. */
  lemma UserIdWins(user: real, full: seq<DdfRow>, defaults: seq<DdfRow>, soid: string, i: nat)
    requires i < |full| && full[i].ddfId == UserKey(user)
    ensures Resolve(Some(user), full, defaults, soid).Resolved?
    ensures Resolve(Some(user), full, defaults, soid).id == UserId(Trunc(user))
    ensures Resolve(Some(user), full, defaults, soid).row in full
  {
  }

  /** Without a user id and without a default row for the SOID, resolution fails. */
  lemma MissWithoutUserOrDefault(full: seq<DdfRow>, defaults: seq<DdfRow>, soid: string)
    requires forall j :: 0 <= j < |defaults| ==> defaults[j].soid != soid
    ensures Resolve(None, full, defaults, soid) == NoMatch
  {
  }
}

=== FILE: secondary.dfy ===
/**
 * Debris tonnage and restoration time, the two secondary results derived from
 * the clamped depth and the occupancy (hazpy/flood/modules/UDF.py, lines
 * 967-1044).  Both are computed only when the clamped depth is positive.
 */
module Secondary {
  import opened Wrappers
  import opened PyText
  import opened Tables
  import opened Lookup

  predicate Ascending(bps: seq<int>) {
    forall i, j :: 0 <= i < j < |bps| ==> bps[i] < bps[j]
  }

  /** The largest breakpoint at or below `d`; the first breakpoint when `d` is below them all. */
  function BucketFloor(bps: seq<int>, d: real): (b: int)
    requires |bps| > 0 && Ascending(bps)
    ensures b in bps
    ensures b as real <= d || (b == bps[0] && forall i :: 0 <= i < |bps| ==> d < bps[i] as real)
    ensures forall i :: 0 <= i < |bps| && bps[i] as real <= d ==> bps[i] <= b
    decreases |bps|
  {
    if |bps| == 1 then bps[0]
    else if bps[|bps| - 1] as real <= d then bps[|bps| - 1]
    else BucketFloor(bps[..|bps| - 1], d)
  }

  /** The smallest breakpoint strictly above `d`; the last breakpoint when `d` reaches them all. */
  function BucketCeil(bps: seq<int>, d: real): (b: int)
    requires |bps| > 0 && Ascending(bps)
    ensures b in bps
    ensures d < b as real || (b == bps[|bps| - 1] && forall i :: 0 <= i < |bps| ==> bps[i] as real <= d)
    ensures forall i :: 0 <= i < |bps| && d < bps[i] as real ==> b <= bps[i]
    decreases |bps|
  {
    if |bps| == 1 then bps[0]
    else if d < bps[0] as real then bps[0]
    else BucketCeil(bps[1..], d)
  }

  /** A sequence whose neighbours ascend is ascending. */
  lemma {:induction false} NeighboursAscend(bps: seq<int>)
    requires forall i :: 0 <= i < |bps| - 1 ==> bps[i] < bps[i + 1]
    ensures Ascending(bps)
  {
    forall i, j | 0 <= i < j < |bps|
      ensures bps[i] < bps[j]
    {
      ChainAscends(bps, i, j);
    }
  }

  lemma {:induction false} ChainAscends(bps: seq<int>, i: nat, j: nat)
    requires forall k :: 0 <= k < |bps| - 1 ==> bps[k] < bps[k + 1]
    requires i < j < |bps|
    ensures bps[i] < bps[j]
    decreases j - i
  {
    if i + 1 < j {
      ChainAscends(bps, i + 1, j);
    }
  }

  /** In an ascending sequence, comparing elements compares their positions. */
  lemma AscendingOrder(bps: seq<int>)
    requires Ascending(bps)
    ensures forall x, y :: 0 <= x < |bps| && 0 <= y < |bps| ==> (bps[x] <= bps[y] <==> x <= y)
  {
  }

  /** `bps[i]` is the floor bucket of every depth from `bps[i]` up to the next breakpoint. */
  lemma BucketFloorAt(bps: seq<int>, d: real, i: nat)
    requires |bps| > 0 && Ascending(bps) && i < |bps|
    requires i == 0 || bps[i] as real <= d
    requires i == |bps| - 1 || d < bps[i + 1] as real
    ensures BucketFloor(bps, d) == bps[i]
  {
    var b := BucketFloor(bps, d);
    var j :| 0 <= j < |bps| && bps[j] == b;
    AscendingOrder(bps);
    assert bps[i] <= bps[j];
    assert i < |bps| - 1 ==> bps[j] < bps[i + 1];
  }

  /** `bps[i]` is the ceiling bucket of every depth from the previous breakpoint up to below `bps[i]`. */
  lemma BucketCeilAt(bps: seq<int>, d: real, i: nat)
    requires |bps| > 0 && Ascending(bps) && i < |bps|
    requires i == |bps| - 1 || d < bps[i] as real
    requires i == 0 || bps[i - 1] as real <= d
    ensures BucketCeil(bps, d) == bps[i]
  {
    var b := BucketCeil(bps, d);
    var j :| 0 <= j < |bps| && bps[j] == b;
    AscendingOrder(bps);
    assert bps[j] <= bps[i];
    assert i > 0 ==> bps[i - 1] < bps[j];
  }

  /** The three breakpoint lists ascend. */
  lemma BreaksAscend()
    ensures Ascending(SlabBreaks) && Ascending(GeneralBreaks) && Ascending(RestorationBreaks)
  {
    NeighboursAscend(SlabBreaks);
    NeighboursAscend(GeneralBreaks);
    NeighboursAscend(RestorationBreaks);
  }

  /** Foundation code of the debris key: slab on grade for foundation types 4 and 7, footing otherwise. */
  function FoundationCode(foundation: real): (c: string)
    ensures c == "SG" <==> foundation == 4.0 || foundation == 7.0
    ensures c == "FT" <==> !(foundation == 4.0 || foundation == 7.0)
  {
    if foundation == 4.0 || foundation == 7.0 then "SG" else "FT"
  }

  /** Basement code of the debris key: only RES1 with foundation type 4 has one. */
  function BasementCode(oc: string, foundation: real): (c: string)
    ensures c == "B" <==> oc == "RES1" && foundation == 4.0
    ensures c == "NB" <==> !(oc == "RES1" && foundation == 4.0)
  {
    if (oc == "RES1" || oc == "COM6") && foundation == 4.0 && oc == "RES1" then "B" else "NB"
  }

  /** Does the RES1/COM6 slab scheme of depth breakpoints apply? */
  predicate SlabScheme(oc: string, foundation: real) {
    (oc == "RES1" || oc == "COM6") && foundation == 4.0
  }

  const SlabBreaks: seq<int> := [-8, -4, 0, 4, 6, 8]
  const GeneralBreaks: seq<int> := [0, 1, 4, 8, 12]
  const RestorationBreaks: seq<int> := [0, 1, 4, 8, 12, 24]

  /** The depth suffix of the RES1/COM6 slab scheme, as the source's conditional chain spells it. */
  function SlabSuffix(d: real): string {
    if d < -4.0 then "-8" else if d < 0.0 then "-4" else if d < 4.0 then "0"
    else if d < 6.0 then "4" else if d < 8.0 then "6" else "8"
  }

  /** The depth suffix shared by every other occupancy, as the source's conditional chain spells it. */
  function GeneralSuffix(d: real): string {
    if d < 1.0 then "0" else if d < 4.0 then "1" else if d < 8.0 then "4"
    else if d < 12.0 then "8" else "12"
  }

  /** The depth part of the debris key; RES2 below the first floor gets none. */
  function DebrisDepthSuffix(oc: string, foundation: real, d: real): string {
    var dsuf := if SlabScheme(oc, foundation) then SlabSuffix(d) else GeneralSuffix(d);
    if oc == "RES2" && d < 0.0 then "" else dsuf
  }

  /** Every breakpoint, printed. */
  lemma PrintedBreakpoints()
    ensures DecimalString(-8) == "-8" && DecimalString(-4) == "-4" && DecimalString(0) == "0"
    ensures DecimalString(1) == "1" && DecimalString(4) == "4" && DecimalString(6) == "6"
    ensures DecimalString(8) == "8" && DecimalString(12) == "12" && DecimalString(24) == "24"
  {
    OneDigit(0);
    OneDigit(1);
    OneDigit(4);
    OneDigit(6);
    OneDigit(8);
    TwoDigits(12);
    TwoDigits(24);
    assert Digits(8) == "8" && Digits(4) == "4";
  }

  /** The slab suffix is the largest slab breakpoint at or below the depth, printed. */
  lemma SlabSuffixIsBucket(d: real)
    ensures SlabSuffix(d) == DecimalString(BucketFloor(SlabBreaks, d))
  {
    BreaksAscend();
    PrintedBreakpoints();
    if d < -4.0 {
      BucketFloorAt(SlabBreaks, d, 0);
      assert BucketFloor(SlabBreaks, d) == -8;
    } else if d < 0.0 {
      BucketFloorAt(SlabBreaks, d, 1);
      assert BucketFloor(SlabBreaks, d) == -4;
    } else if d < 4.0 {
      BucketFloorAt(SlabBreaks, d, 2);
      assert BucketFloor(SlabBreaks, d) == 0;
    } else if d < 6.0 {
      BucketFloorAt(SlabBreaks, d, 3);
      assert BucketFloor(SlabBreaks, d) == 4;
    } else if d < 8.0 {
      BucketFloorAt(SlabBreaks, d, 4);
      assert BucketFloor(SlabBreaks, d) == 6;
    } else {
      BucketFloorAt(SlabBreaks, d, 5);
      assert BucketFloor(SlabBreaks, d) == 8;
    }
  }

  /** The general suffix is the largest general breakpoint at or below the depth, printed. */
  lemma GeneralSuffixIsBucket(d: real)
    ensures GeneralSuffix(d) == DecimalString(BucketFloor(GeneralBreaks, d))
  {
    BreaksAscend();
    PrintedBreakpoints();
    if d < 1.0 {
      BucketFloorAt(GeneralBreaks, d, 0);
      assert BucketFloor(GeneralBreaks, d) == 0;
    } else if d < 4.0 {
      BucketFloorAt(GeneralBreaks, d, 1);
      assert BucketFloor(GeneralBreaks, d) == 1;
    } else if d < 8.0 {
      BucketFloorAt(GeneralBreaks, d, 2);
      assert BucketFloor(GeneralBreaks, d) == 4;
    } else if d < 12.0 {
      BucketFloorAt(GeneralBreaks, d, 3);
      assert BucketFloor(GeneralBreaks, d) == 8;
    } else {
      BucketFloorAt(GeneralBreaks, d, 4);
      assert BucketFloor(GeneralBreaks, d) == 12;
    }
  }

  /** The depth part of the debris key is the largest breakpoint at or below the depth, printed. */
  lemma DebrisSuffixIsBucket(oc: string, foundation: real, d: real)
    requires !(oc == "RES2" && d < 0.0)
    ensures SlabScheme(oc, foundation) ==>
              DebrisDepthSuffix(oc, foundation, d) == DecimalString(BucketFloor(SlabBreaks, d))
    ensures !SlabScheme(oc, foundation) ==>
              DebrisDepthSuffix(oc, foundation, d) == DecimalString(BucketFloor(GeneralBreaks, d))
  {
    SlabSuffixIsBucket(d);
    GeneralSuffixIsBucket(d);
  }

  /** The debris lookup key: occupancy, basement code, foundation code, depth suffix. */
  function DebrisKey(oc: string, foundation: real, d: real): string {
    oc + BasementCode(oc, foundation) + FoundationCode(foundation) + DebrisDepthSuffix(oc, foundation, d)
  }

  /** Debris in tons for one facility, by component, and their sum. */
  datatype DebrisTons = DebrisTons(key: string, finishes: real, structure: real, foundation: real, total: real)

  /** Tonnage from a debris row: area times the per-1000-square-foot rate, over 1000. */
  function Tonnage(key: string, area: real, row: DebrisRow): (t: DebrisTons)
    ensures t.key == key
    ensures t.finishes == area * row.finishes / 1000.0
    ensures t.structure == area * row.structure / 1000.0
    ensures t.foundation == area * row.foundation / 1000.0
    ensures t.total == t.finishes + t.structure + t.foundation
    ensures t.total == area * (row.finishes + row.structure + row.foundation) / 1000.0
    ensures area >= 0.0 && row.finishes >= 0.0 && row.structure >= 0.0 && row.foundation >= 0.0 ==>
              0.0 <= t.finishes <= t.total && 0.0 <= t.structure <= t.total && 0.0 <= t.foundation <= t.total
  {
    var fin := area * row.finishes / 1000.0;
    var struc := area * row.structure / 1000.0;
    var found := area * row.foundation / 1000.0;
    assert area * (row.finishes + row.structure + row.foundation) ==
           area * row.finishes + area * row.structure + area * row.foundation;
    DebrisTons(key, fin, struc, found, fin + struc + found)
  }

  /**
   * Debris for a facility at clamped depth `d`: nothing unless `d` is positive;
   * otherwise the LAST table row with the key (the scan has no `break`).  A
   * missing row leaves a damage-function row in the loop variable, whose rate
   * columns do not exist, and the run aborts.
   */
  function Debris(oc: string, foundation: real, area: real, d: real, table: seq<DebrisRow>)
    : (r: Result<Option<DebrisTons>, RunError>)
    ensures d <= 0.0 ==> r == Ok(None)
    ensures d > 0.0 ==> (r.Err? <==> forall j :: 0 <= j < |table| ==> table[j].debrisId != DebrisKey(oc, foundation, d))
    ensures d > 0.0 && r.Ok? ==> r.value.Some? && r.value.value.key == DebrisKey(oc, foundation, d)
    ensures d > 0.0 && r.Ok? ==>
              exists i :: 0 <= i < |table| && table[i].debrisId == DebrisKey(oc, foundation, d) &&
                (forall j :: i < j < |table| ==> table[j].debrisId != DebrisKey(oc, foundation, d)) &&
                r.value.value == Tonnage(DebrisKey(oc, foundation, d), area, table[i])
  {
    if d > 0.0 then
      var key := DebrisKey(oc, foundation, d);
      match FindLast(table, (row: DebrisRow) => row.debrisId == key)
      case None => Err(DebrisMiss(key))
      case Some(i) => Ok(Some(Tonnage(key, area, table[i])))
    else Ok(None)
  }

  /** The depth part of the restoration key, as the source's conditional chain spells it. */
  function RestorationSuffix(d: real): string {
    if d < 0.0 then "0" else if d < 1.0 then "1" else if d < 4.0 then "4"
    else if d < 8.0 then "8" else if d < 12.0 then "12" else "24"
  }

  /** The restoration suffix is the smallest breakpoint above the depth, capped at 24, printed. */
  lemma RestorationSuffixIsBucket(d: real)
    ensures RestorationSuffix(d) == DecimalString(BucketCeil(RestorationBreaks, d))
  {
    BreaksAscend();
    PrintedBreakpoints();
    if d < 0.0 {
      BucketCeilAt(RestorationBreaks, d, 0);
      assert BucketCeil(RestorationBreaks, d) == 0;
    } else if d < 1.0 {
      BucketCeilAt(RestorationBreaks, d, 1);
      assert BucketCeil(RestorationBreaks, d) == 1;
    } else if d < 4.0 {
      BucketCeilAt(RestorationBreaks, d, 2);
      assert BucketCeil(RestorationBreaks, d) == 4;
    } else if d < 8.0 {
      BucketCeilAt(RestorationBreaks, d, 3);
      assert BucketCeil(RestorationBreaks, d) == 8;
    } else if d < 12.0 {
      BucketCeilAt(RestorationBreaks, d, 4);
      assert BucketCeil(RestorationBreaks, d) == 12;
    } else {
      BucketCeilAt(RestorationBreaks, d, 5);
      assert BucketCeil(RestorationBreaks, d) == 24;
    }
  }

  function RestorationKey(oc: string, d: real): string {
    oc + RestorationSuffix(d)
  }

  /**
   * Minimum and maximum restoration days at clamped depth `d`: 0/0 unless `d`
   * is positive; otherwise the FIRST table row with the key.  A missing row
   * leaves a row without the day columns in the loop variable and the run aborts.
   */
  function Restoration(oc: string, d: real, table: seq<RestorationRow>): (r: Result<(int, int), RunError>)
    ensures d <= 0.0 ==> r == Ok((0, 0))
    ensures d > 0.0 ==> (r.Err? <==> forall j :: 0 <= j < |table| ==> table[j].restFnId != RestorationKey(oc, d))
    ensures d > 0.0 && r.Ok? ==>
              exists i :: 0 <= i < |table| && table[i].restFnId == RestorationKey(oc, d) &&
                (forall j :: 0 <= j < i ==> table[j].restFnId != RestorationKey(oc, d)) &&
                r.value == (table[i].minDays, table[i].maxDays)
  {
    if d > 0.0 then
      var key := RestorationKey(oc, d);
      match FindFirst(table, (row: RestorationRow) => row.restFnId == key)
      case None => Err(RestorationMiss(key))
      case Some(i) => Ok((table[i].minDays, table[i].maxDays))
    else Ok((0, 0))
  }

  /** With a positive depth the restoration key ends in one of 1, 4, 8, 12, 24. */
  lemma PositiveDepthRestorationSuffix(d: real)
    requires d > 0.0
    ensures RestorationSuffix(d) in {"1", "4", "8", "12", "24"}
  {
  }
}

=== FILE: stablesort.dfy ===
/**
 * A stable sort by key, the behaviour of Python's `sorted(..., key=...)`.
 * Stability is stated as: for every key value, the elements carrying that key
 * appear in the output in the same order as in the input.
 */
module StableSort {

  /** `le` is a total order on keys. */
  ghost predicate TotalOrder<K(!new)>(le: (K, K) -> bool) {
    && (forall a :: le(a, a))
    && (forall a, b :: le(a, b) && le(b, a) ==> a == b)
    && (forall a, b, c :: le(a, b) && le(b, c) ==> le(a, c))
    && (forall a, b :: le(a, b) || le(b, a))
  }

  ghost predicate Sorted<T, K>(s: seq<T>, key: T -> K, le: (K, K) -> bool) {
    forall i, j :: 0 <= i < j < |s| ==> le(key(s[i]), key(s[j]))
  }

  /** The elements of `s` whose key is `k`, in their order in `s`. */
  function Keep<T, K(==)>(s: seq<T>, key: T -> K, k: K): seq<T> {
    if |s| == 0 then []
    else (if key(s[0]) == k then [s[0]] else []) + Keep(s[1..], key, k)
  }

  lemma {:induction false} KeepAppend<T, K>(a: seq<T>, b: seq<T>, key: T -> K, k: K)
    ensures Keep(a + b, key, k) == Keep(a, key, k) + Keep(b, key, k)
    decreases |a|
  {
    if |a| > 0 {
      assert (a + b)[0] == a[0];
      assert (a + b)[1..] == a[1..] + b;
      KeepAppend(a[1..], b, key, k);
    } else {
      assert a + b == b;
    }
  }

  /** Insert `x` after every element whose key is at or below its key. */
  function Insert<T, K>(x: T, s: seq<T>, key: T -> K, le: (K, K) -> bool): (r: seq<T>)
    ensures |r| == |s| + 1
    ensures multiset(r) == multiset(s) + multiset{x}
    decreases |s|
  {
    if |s| == 0 then [x]
    else if le(key(s[0]), key(x)) then
      var rest := Insert(x, s[1..], key, le);
      assert s == [s[0]] + s[1..];
      [s[0]] + rest
    else [x] + s
  }

  lemma {:induction false} InsertSorted<T, K(!new)>(x: T, s: seq<T>, key: T -> K, le: (K, K) -> bool)
    requires TotalOrder(le)
    requires Sorted(s, key, le)
    ensures Sorted(Insert(x, s, key, le), key, le)
    decreases |s|
  {
    if |s| > 0 && le(key(s[0]), key(x)) {
      InsertSorted(x, s[1..], key, le);
      var rest := Insert(x, s[1..], key, le);
      var r := Insert(x, s, key, le);
      assert r == [s[0]] + rest;
      forall j | 0 < j < |r|
        ensures le(key(r[0]), key(r[j]))
      {
        assert r[j] in multiset(rest);
        assert r[j] in multiset(s[1..]) + multiset{x};
        if r[j] == x {
        } else {
          assert r[j] in s[1..];
          var m :| 0 <= m < |s[1..]| && s[1..][m] == r[j];
          assert s[1 + m] == r[j];
        }
      }
    }
  }

  lemma {:induction false} InsertKeep<T, K(!new)>(x: T, s: seq<T>, key: T -> K, le: (K, K) -> bool, k: K)
    requires TotalOrder(le)
    requires Sorted(s, key, le)
    ensures Keep(Insert(x, s, key, le), key, k) == Keep(s, key, k) + (if key(x) == k then [x] else [])
    decreases |s|
  {
    if |s| == 0 {
    } else if le(key(s[0]), key(x)) {
      SortedTail(s, key, le);
      InsertKeep(x, s[1..], key, le, k);
      KeepPastHead(x, s, key, le, k);
    } else {
      KeepCons(x, s, key, k);
      if key(x) == k {
        KeepNone(s, key, k, le, key(s[0]));
      }
    }
  }

  /** The step of `InsertKeep` where `x` goes past the head of `s`. */
  lemma KeepPastHead<T, K>(x: T, s: seq<T>, key: T -> K, le: (K, K) -> bool, k: K)
    requires |s| > 0 && le(key(s[0]), key(x))
    requires Keep(Insert(x, s[1..], key, le), key, k) == Keep(s[1..], key, k) + (if key(x) == k then [x] else [])
    ensures Keep(Insert(x, s, key, le), key, k) == Keep(s, key, k) + (if key(x) == k then [x] else [])
  {
    var rest := Insert(x, s[1..], key, le);
    var head := if key(s[0]) == k then [s[0]] else [];
    var last := if key(x) == k then [x] else [];
    var tail := Keep(s[1..], key, k);
    assert Keep(Insert(x, s, key, le), key, k) == head + Keep(rest, key, k) by {
      assert Insert(x, s, key, le) == [s[0]] + rest;
      KeepCons(s[0], rest, key, k);
    }
    assert Keep(s, key, k) == head + tail;
    ConcatAssoc(head, tail, last);
  }

  /** Concatenation is associative. */
  lemma ConcatAssoc<T>(a: seq<T>, b: seq<T>, c: seq<T>)
    ensures a + (b + c) == (a + b) + c
  {
    assert |a + (b + c)| == |(a + b) + c|;
    forall i | 0 <= i < |a| + |b| + |c|
      ensures (a + (b + c))[i] == ((a + b) + c)[i]
    {
    }
  }

  /** Keeping from a sequence with a known head. */
  lemma KeepCons<T, K>(x: T, rest: seq<T>, key: T -> K, k: K)
    ensures Keep([x] + rest, key, k) == (if key(x) == k then [x] else []) + Keep(rest, key, k)
  {
    assert ([x] + rest)[1..] == rest;
  }

  /** In a sorted sequence whose first key is strictly above `k`, nothing has key `k`. */
  lemma {:induction false} KeepNone<T, K(!new)>(s: seq<T>, key: T -> K, k: K, le: (K, K) -> bool, first: K)
    requires TotalOrder(le)
    requires Sorted(s, key, le)
    requires |s| > 0 && first == key(s[0]) && !le(first, k)
    ensures Keep(s, key, k) == []
    decreases |s|
  {
    if |s| > 1 {
      assert le(key(s[0]), key(s[1]));
      KeepNone(s[1..], key, k, le, key(s[1]));
    }
  }

  /**
   * Stable insertion sort by key: a permutation of the input, sorted by `le`
   * on the keys, and keeping the input order among equal keys.
   */
  function SortBy<T, K(==,!new)>(s: seq<T>, key: T -> K, le: (K, K) -> bool): (r: seq<T>)
    requires TotalOrder(le)
    ensures |r| == |s|
    ensures multiset(r) == multiset(s)
    ensures Sorted(r, key, le)
    ensures forall k :: Keep(r, key, k) == Keep(s, key, k)
    decreases |s|
  {
    if |s| == 0 then []
    else
      var init := s[..|s| - 1];
      var last := s[|s| - 1];
      assert s == init + [last];
      var sortedInit := SortBy(init, key, le);
      InsertSorted(last, sortedInit, key, le);
      StableInsertStep(init, last, sortedInit, key, le);
      Insert(last, sortedInit, key, le)
  }

  lemma StableInsertStep<T, K(!new)>(init: seq<T>, last: T, sortedInit: seq<T>, key: T -> K, le: (K, K) -> bool)
    requires TotalOrder(le)
    requires Sorted(sortedInit, key, le)
    requires forall k :: Keep(sortedInit, key, k) == Keep(init, key, k)
    ensures forall k :: Keep(Insert(last, sortedInit, key, le), key, k) == Keep(init + [last], key, k)
  {
    forall k
      ensures Keep(Insert(last, sortedInit, key, le), key, k) == Keep(init + [last], key, k)
    {
      InsertKeep(last, sortedInit, key, le, k);
      KeepAppend(init, [last], key, k);
      assert Keep([last], key, k) == (if key(last) == k then [last] else []) + Keep([last][1..], key, k);
    }
  }

  /** A sorted permutation that keeps the input order among equal keys is unique. */
  lemma {:induction false} StableSortUnique<T, K(!new)>(a: seq<T>, b: seq<T>, key: T -> K, le: (K, K) -> bool)
    requires TotalOrder(le)
    requires Sorted(a, key, le) && Sorted(b, key, le)
    requires forall k :: Keep(a, key, k) == Keep(b, key, k)
    ensures a == b
    decreases |a| + |b|
  {
    if |a| == 0 || |b| == 0 {
      if |a| > 0 {
        KeepHead(a, key);
      } else if |b| > 0 {
        KeepHead(b, key);
      }
    } else {
      var ka := key(a[0]);
      var kb := key(b[0]);
      if ka != kb {
        if le(ka, kb) {
          KeepHead(a, key);
          KeepNone(b, key, ka, le, kb);
        } else {
          KeepHead(b, key);
          KeepNone(a, key, kb, le, ka);
        }
      } else {
        KeepHead(a, key);
        KeepHead(b, key);
        assert a[0] == Keep(a, key, ka)[0] == Keep(b, key, ka)[0] == b[0];
        forall k
          ensures Keep(a[1..], key, k) == Keep(b[1..], key, k)
        {
          var ta := Keep(a[1..], key, k);
          var tb := Keep(b[1..], key, k);
          assert Keep(a, key, k) == Keep(b, key, k);
          assert Keep(a, key, k) == (if key(a[0]) == k then [a[0]] else []) + ta;
          assert Keep(b, key, k) == (if key(b[0]) == k then [b[0]] else []) + tb;
          if key(a[0]) == k {
            assert ([a[0]] + ta)[1..] == ta;
            assert ([b[0]] + tb)[1..] == tb;
          } else {
            assert [] + ta == ta;
            assert [] + tb == tb;
          }
        }
        SortedTail(a, key, le);
        SortedTail(b, key, le);
        StableSortUnique(a[1..], b[1..], key, le);
        assert a == [a[0]] + a[1..];
        assert b == [b[0]] + b[1..];
      }
    }
  }

  lemma KeepHead<T, K>(s: seq<T>, key: T -> K)
    requires |s| > 0
    ensures |Keep(s, key, key(s[0]))| > 0 && Keep(s, key, key(s[0]))[0] == s[0]
  {
  }

  lemma SortedTail<T, K>(s: seq<T>, key: T -> K, le: (K, K) -> bool)
    requires |s| > 0 && Sorted(s, key, le)
    ensures Sorted(s[1..], key, le)
  {
    forall i, j | 0 <= i < j < |s[1..]|
      ensures le(key(s[1..][i]), key(s[1..][j]))
    {
      assert s[1..][i] == s[i + 1] && s[1..][j] == s[j + 1];
    }
  }
}

=== FILE: tables.dfy ===
/**
 * Rows of the reference tables the flood-loss run reads once per run, and the
 * reasons a run can abort.  Every table cell is held already converted to the
 * number the code converts it to with `float(...)` or `int(...)`.
 */
module Tables {

  /**
   * One depth-damage-function row.  `ddfId` is the id column (`BldgDmgFnID`,
   * `ContDmgFnId`, `InvDmgFnId` in a full library, `DDF_ID` in a default table),
   * `soid` the `SpecificOccupId` column of a default table, `occupancy` its
   * `Occupancy` label, and `pct` the percentage columns `m4`..`m1`, `p0`..`p24`.
   */
  datatype DdfRow = DdfRow(ddfId: string, soid: string, occupancy: string, pct: map<string, real>)

  /** A row of the inventory economic-parameter table. */
  datatype EconRow = EconRow(occupancy: string, salesPerSqFt: real, invPctOfSales: real)

  /** A row of the debris table: tons per 1000 square feet for each component. */
  datatype DebrisRow = DebrisRow(debrisId: string, finishes: real, structure: real, foundation: real)

  /** A row of the restoration-time table. */
  datatype RestorationRow = RestorationRow(restFnId: string, minDays: int, maxDays: int)

  /** Every reference table of a run. */
  datatype LookupTables = LookupTables(
    bldgRiverine: seq<DdfRow>, bldgCoastalA: seq<DdfRow>, bldgCoastalV: seq<DdfRow>, bldgFull: seq<DdfRow>,
    contRiverine: seq<DdfRow>, contCoastalA: seq<DdfRow>, contCoastalV: seq<DdfRow>, contFull: seq<DdfRow>,
    invRiverine: seq<DdfRow>, invFull: seq<DdfRow>,
    econ: seq<EconRow>, debris: seq<DebrisRow>, restoration: seq<RestorationRow>)

  /**
   * Why a run stops.  Each is an exception the per-record code raises and the
   * catch-all handler of the run turns into a failed run.
   */
  datatype RunError =
    | MissingColumn(key: string)          // a damage row lacks the interpolation column
    | DebrisMiss(debrisKey: string)       // no debris row, stale row lacks the rate columns
    | RestorationMiss(restoreKey: string) // no restoration row, stale row lacks the day columns
    | EconMiss(occupancy: string)         // no economic row on the first record that needs one
    | IncompleteFirstRecord               // the field-check path runs before its helper exists
    | ExtraColumn                         // a record gained a column the writer does not know
    | HeaderlessSort                      // the output lacks its header row, so the sort finds no depth column
}

=== FILE: wrappers.dfy ===
/** Failure-carrying values shared by every module of the flood-loss model. */
module Wrappers {

  /** An optional value: `None` stands for Python's `None` or for a missing lookup. */
  datatype Option<+T> = None | Some(value: T)

  /** A computation that either yields a value or aborts with an error. */
  datatype Result<+T, +E> = Ok(value: T) | Err(error: E) {
    predicate IsFailure() {
      Err?
    }

    function PropagateFailure<U>(): Result<U, E>
      requires Err?
    {
      Err(error)
    }

    function Extract(): T
      requires Ok?
    {
      value
    }
  }
}
